=== FILE: README.md ===
# Portfolio backend: account lifecycle and authorization, in Dafny

This project models the core of a FastAPI/SQLAlchemy portfolio backend.
Users register, verify their email through a mailed link, and log in to get
a bearer access token. They can edit their profile, reset or change their
password, and delete their account. They own portfolios that only they may
edit. Admins can manage every user and every portfolio.

Each HTTP route is a pure function. It takes the database before the
request (`Models.Store`: the `users` and `portfolios` tables plus their id
sequences), the current time in seconds, the request, and, where the route
draws one, the random verification nonce. It returns an `Outcome`: the
response (`Ok` or an error `Reason` with its HTTP status), the database after
the request, and the mails the route hands to the mail sender.

Modules follow the source files:

- `Base`: option and result types, error reasons and their status codes, and the
  case folding behind `ILIKE`.
- `Security`: `core/security.py`. Token minting and decoding, and password hashing.
- `Schemas`: `schemas/user_schema.py` and `schemas/portfolio_schema.py`. Request
  bodies and their field constraints.
- `Models`: `models/user.py` and `models/portfolio.py`. Rows, the store, the
  unique and foreign-key constraints, and the query helpers.
- `Dependencies`: `core/dependencies.py`. `get_current_user`.
- `Auth`, `Users`, `Portfolios`, `Admin`: the four routers.
- `Scenarios`: properties of request sequences. For example, what a
  profile change does to the sessions issued before it.

How the model reads the library and database behaviour:

- **JWT.** A token is `Signed(claims)` when it verifies under the server key,
  or `Unverifiable` otherwise. `jwt.decode` rejects an unverifiable token, an
  `exp` that is not an integer or lies in the past, and an `iat` that is not
  an integer. `decode_token` then compares `type` only when an expected type
  is passed and non-empty.
- **Token lifetimes.**
  - Access tokens live `ACCESS_TOKEN_EXPIRE_MINUTES`.
  - Password-reset tokens live one hour.
  - Every other token minted without an explicit lifetime lives fifteen
    minutes (`core/security.py:22-26`). This includes the email-verification
    links.
- **Passwords.** PBKDF2 is replaced by a one-way `Digest`. Verification
  accepts exactly the password the digest was made from.
- **`.first()` without `ORDER BY`** returns the matching row with the smallest id.
- **`ILIKE`** is ASCII case-insensitive equality. The route inputs are
  treated as literal text, not patterns.
- **Database constraints.** The UNIQUE constraints on `users.username` and
  `users.email` are exact-match. `Models.Commit` checks them when a route
  commits. A violation answers 500 `IntegrityViolation` and rolls back: no
  change and no mail.
- **NOT NULL.** An explicit `null` written to a NOT NULL column by a partial
  update fails the same way. The affected columns are portfolio title and
  description, and a user's names and username.
- **Admin update, explicit `null` email.** The handler passes the email
  through `str()` before storing it. An explicit `null` email is therefore
  stored as the four-character text `None`. The model keeps this behaviour.
- **Admin update, explicit `null` flag.** An explicit `null` for `is_admin`
  or `is_verified` is stored as NULL. The routes read these flags only
  through truth tests, which take NULL as false, so the model stores `false`.
- **Admin update response.** The route declares `UserResponse`, which wants
  boolean flags and a valid email (`schemas/user_schema.py:16-23`). The
  update is committed before the response is checked. So a request with an
  explicit `null` flag or email changes the row and then answers 500
  (`ResponseInvalid`).
- **Uniqueness checks are not uniform across routes.**
  - Registration rejects a username or email that another user's username
    or email matches up to case.
  - The profile update compares usernames exactly and emails up to case.
  - The admin create compares both exactly.
  - The admin update runs no check of its own, so only the database
    constraints stop it.
- **Profile email check.** It refuses an email only when the first
  case-insensitive match is another user. If two rows both matched, the
  caller could hold the smaller id and pass.
- **Request order.** Authentication and `admin_required` are FastAPI
  dependencies, so they run before a route's own checks. Where the model
  checks the body (`ValidationFailed`, 422), it does so after them.

## Model

| member | source | states |
|---|---|---|
| Security.CreateToken | core/security.py:18-35 | A minted token is signed and carries the caller's claims. Its `type`, `iat` and `exp` are stamped over any claims with those names. `exp` is the issue time plus the explicit lifetime, or else the access or fifteen-minute default. |
| Security.DecodeToken | core/security.py:37-51 | Every failure is the same 401. A token decodes only if it is signed, its times are acceptable, and its `type` equals the expected purpose when one is given. With no expected purpose, every signed unexpired token decodes. |
| Security.DecodeCreateRoundTrip | core/security.py:18-51 | Decoding an unexpired minted token for its own purpose gives back exactly the claim set it was minted with. |
| Security.DecodeRejectsOtherPurpose | core/security.py:46-47 | A token minted for one purpose is refused wherever another non-empty purpose is expected. |
| Security.DecodeRejectsExpired | core/security.py:28-32 | Once a minted token's lifetime has passed, it is refused whatever purpose is expected. |
| Security.DecodeUntypedAcceptsAnyPurpose | core/security.py:46 | A decode with no expected purpose accepts an unexpired token of any purpose. |
| Security.ExpiryIsACutoff | core/security.py:28-32 | A token accepted at some instant is also accepted at every earlier instant, and decodes to the same claims there. |
| Security.VerifyPassword | core/security.py:15-16 | A password verifies against a stored hash exactly when the hash was made from that password. |
| Security.VerifyHashExactly | core/security.py:12-16 | `verify(p, hash(p))` holds, and `verify(q, hash(p))` only when `q = p`. |
| Base.Status | routers/auth.py:45-172 | Each error reason maps to the status the routes raise: duplicate identities, stale links, a repeated password and empty or clashing profile updates to 400, the token, session and credential failures to 401, the verification and admin gates to 403, absent rows to 404, body validation to 422, and failed commits or responses to 500. |
| Models.Commit | models/user.py:13-14 | A commit never leaves two users with the same username or email: the stored state either keeps both UNIQUE constraints or is the state before the request. A store that satisfied them still does. Every commit either stores the new state with the route's response and mails, or answers 500 with the old state and no mail. |
| Models.NewUser | models/user.py:11-18 | A new row takes the given names, email and hash; it is not an admin, not verified, and has no pending nonce. |
| Models.SameIdentityKeepsUnique | models/user.py:13-14 | Rewriting a row without changing its username or email keeps both UNIQUE constraints satisfied. |
| Models.FirstMatch | routers/auth.py:27-32 | The scan returns a matching user with no matching user at a smaller id, or nothing when no user in range matches. |
| Models.FindUser | routers/auth.py:27-32 | `.first()` yields the matching row of smallest id, and yields nothing only when no row matches. |
| Models.LookupUser | routers/auth.py:75 | A `user_id` claim selects a row id exactly when it is a non-negative integer, and that id is the claim's value. |
| Models.OwnedFrom | routers/portfolios.py:36 | The scan lists exactly the in-range portfolios of one owner, each once, in ascending id order. |
| Models.OwnedFromFrame | routers/portfolios.py:36 | The listing depends only on which ids hold a portfolio of the owner, so edits that move no portfolio between owners leave it unchanged. |
| Models.OwnedFromExtend | routers/portfolios.py:36 | A portfolio stored at the next id is appended at the end of its owner's listing. |
| Models.OwnedFromNone | routers/portfolios.py:36 | An owner with no portfolio in range has an empty listing. |
| Models.OwnedFromRemove | routers/portfolios.py:89-90 | Deleting one portfolio row removes exactly its id from every listing and keeps the order of the rest. |
| Models.PortfoliosOf | routers/portfolios.py:36 | Filtering by owner yields only portfolios of that owner, all of them when ids are allocated, in id order. |
| Models.InsertUserValid | models/user.py:10 | Inserting a row whose username and email no row has keeps the store invariant. |
| Models.DeleteUserCascade | models/user.py:23 | Deleting a user removes exactly that row and every portfolio it owns, and leaves all other rows unchanged. The foreign key stays satisfied. |
| Models.DeleteUserCascadeListings | routers/users.py:113-115 | After the cascade the deleted user's listing is empty, and every other user's listing is exactly as before. |
| Models.PutUserValid | models/user.py:13-14 | Replacing a row by one whose username and email no other row holds keeps the store invariant. |
| Dependencies.GetCurrentUser | core/dependencies.py:12-38 | The dependency answers a user only when the token is an unexpired, signed access token whose non-zero id and non-empty email and username equal that user's current row. Every failure is one of the three 401 reasons. A token that fails to decode is `TokenInvalid`. A missing or falsy id, email or username claim, or an id naming no row, is the "session invalid" 401. A claim that differs from the row is the "identity changed" 401. |
| Dependencies.GetCurrentUserExact | core/dependencies.py:12-38 | A token authenticates user `id` if and only if the snapshot conditions hold for `id`. |
| Dependencies.StaleSnapshotRejected | core/dependencies.py:32-36 | A valid access token whose email or username claim differs from the user's current row is refused as "identity changed". |
| Dependencies.OnlyAccessTokensAccepted | core/dependencies.py:19 | A verification, reset or deletion token never authenticates, whatever claims it carries. |
| Dependencies.VerificationNotConsulted | core/dependencies.py:12-38 | Authentication does not depend on the user's verified flag. |
| Dependencies.FreshSessionAccepted | routers/auth.py:113-114 | The access token login mints authenticates its user until it expires, while the row's email and username are non-empty. A row an admin update left with an empty username has every session refused. |
| Auth.GetUserByUsernameOrEmail | routers/auth.py:23-32 | The lookup finds a user whose username or email equals the identifier up to case. It finds nothing exactly when no user does. |
| Auth.RegisterUser | routers/auth.py:35-69 | Registration answers 422 for a body that breaks the length rules. It answers 400 exactly when some user's username or email matches the new username or email up to case. Otherwise it inserts one unverified row carrying the nonce at the next id, mails a verification link for that id and nonce, and preserves the store invariant. |
| Auth.VerifyEmail | routers/auth.py:72-88 | A verified user is a no-op. A link whose nonce is not the one stored answers 400. An expired, unsigned or wrong-purpose token answers 401, and an unknown user 404. A link carrying the stored nonce verifies an unverified user. Success marks exactly that user verified, consumes the nonce, and requires a token of the verify purpose naming the user. The route never sends mail. |
| Auth.LoginUser | routers/auth.py:91-119 | Login with an unknown identifier or a wrong password answers 401. An unverified user gets 403, a fresh nonce and a new link. A verified user with the right password always gets an access token for the user the lookup found. That token carries the user's id, email and username, and nothing changes. |
| Auth.ForgotPassword | routers/auth.py:122-139 | The route answers 404 exactly when no email matches up to case. Otherwise it mails a one-hour reset link to a matching user. The store never changes. |
| Auth.ResetPassword | routers/auth.py:142-159 | An invalid token answers 401 and an unknown user 404. A valid reset token naming an existing user always succeeds. It replaces that user's hash and nothing else. |
| Auth.ChangePassword | routers/auth.py:162-180 | The route answers 401 for a wrong current password and 400 when the new password equals it. Authentication failures pass through. With the right current password and a different new one, the change succeeds. After it, the old password no longer verifies and the new one does, and a "password changed" notice is mailed to the user's email. |
| Users.EditProfile | routers/users.py:34-60 | Only non-empty fields are assigned. A different email resets verification and stores the fresh nonce. The password and admin flag are kept. |
| Users.UpdateMyProfile | routers/users.py:24-85 | Authentication failures pass through. A username another user holds answers 400, then an email another user holds up to case, then an update that changes nothing. Otherwise the update succeeds unless it would break a unique constraint. Success applies the edit to the caller's row only. An email change answers "logout required" and mails a link for the new nonce. |
| Users.RequestAccountDeletion | routers/users.py:88-100 | The route never changes the store. An authenticated caller gets a deletion link naming its own id. |
| Users.ConfirmAccountDeletion | routers/users.py:103-121 | An invalid token answers 401. A valid deletion token succeeds exactly when the user it names exists. It deletes that user and all that user's portfolios. |
| Portfolios.ApplyPortfolioUpdate | routers/portfolios.py:68-70 | Only the fields sent are replaced and the owner never changes. The update fails exactly when title or description is sent as null. |
| Portfolios.CreatePortfolio | routers/portfolios.py:17-29 | A new portfolio belongs to the authenticated caller whatever the body says. A null description fails the commit. |
| Portfolios.GetMyPortfolios | routers/portfolios.py:31-37 | The route answers exactly the caller's portfolios in ascending id order, and fails exactly when authentication fails. |
| Portfolios.GetPortfolioDetail | routers/portfolios.py:44-52 | The route answers 404 exactly when the id is absent, and the stored portfolio otherwise. |
| Portfolios.UpdatePortfolio | routers/portfolios.py:54-74 | Authentication failures pass through. Only the caller's own portfolio can change. Another user's portfolio answers 404, as an absent one does. The owner's update succeeds exactly when no required field is sent as null. |
| Portfolios.DeletePortfolio | routers/portfolios.py:76-91 | Deletion succeeds exactly for the caller's own portfolio, and removes only that one. |
| Portfolios.ListUserPortfoliosById | routers/portfolios.py:93-104 | The public listing answers exactly the portfolios of that user, in id order. |
| Portfolios.CreatePortfolioAppendsToListing | routers/portfolios.py:23-29 | A created portfolio is appended to the caller's public listing, and every other user's listing is unchanged. |
| Portfolios.UpdatePortfolioKeepsListings | routers/portfolios.py:68-74 | An owner's update changes no user's listing. |
| Portfolios.DeletePortfolioShrinksListing | routers/portfolios.py:82-91 | A deletion removes exactly that id from the caller's listing, and leaves every other user's listing unchanged. |
| Admin.AdminRequired | routers/admin.py:16-22 | Authentication failures pass through, and an authenticated non-admin gets 403. |
| Admin.AdminRequiredExact | routers/admin.py:16-22 | The gate admits a request exactly when the token authenticates an admin. |
| Admin.AdminCreatedUser | routers/admin.py:40-48 | The created row takes the names, username and email as sent, the flags as sent and no nonce, and its hash verifies the given password. |
| Admin.CreateUserAsAdmin | routers/admin.py:28-52 | Non-admins are refused, then an invalid body answers 422. The route answers 400 exactly when some user has the same username or email. When no user does, it succeeds and inserts the row at the next id. |
| Admin.CreateUserAsAdminDefaults | schemas/user_schema.py:51-53 | An admin-created user whose body leaves the flags out is stored as a verified non-admin, with the given names, username, email and password. |
| Admin.ApplyAdminUpdate | routers/admin.py:65-71 | Only the fields sent are written. A null name or username fails the commit. A null email becomes the text `None`. The password and nonce are kept. |
| Admin.UpdateUserAsAdmin | routers/admin.py:54-75 | An admin can rewrite any existing user. An absent user answers 404. A null name or username, or a clash with another row, answers 500 and changes nothing. Otherwise the row is committed. The answer is the user's id, or 500 when a flag or the email was sent as null. |
| Admin.DeleteUserAsAdmin | routers/admin.py:77-90 | Deletion removes an existing user and all that user's portfolios; an absent user answers 404. |
| Admin.UserPortfoliosAsAdmin | routers/admin.py:92-99 | An admin always gets an answer: exactly the portfolios of the given user, in ascending id order. |
| Admin.UpdatePortfolioAsAdmin | routers/admin.py:101-118 | An admin can update any existing portfolio. The update succeeds exactly when no required field is sent as null, the same rule as for its owner. |
| Admin.DeletePortfolioAsAdmin | routers/admin.py:120-132 | An admin can delete any portfolio and only that one. An absent portfolio answers 404. |
| Admin.UpdatePortfolioAsAdminKeepsListings | routers/admin.py:101-118 | An admin's portfolio update never moves a portfolio to another owner's listing. |
| Admin.DeletePortfolioAsAdminShrinksListings | routers/admin.py:120-132 | An admin's deletion removes exactly that id from every listing and keeps the rest in order. |
| Scenarios.RegisterThenVerify | routers/auth.py:55-88 | The link mailed at registration verifies the new account while it is unexpired. |
| Scenarios.VerifyTwiceIsNoop | routers/auth.py:78-79 | Presenting a link again after it verified the account is a successful no-op. |
| Scenarios.LoginResendOrphansOtherLinks | routers/auth.py:97-100 | After login stores a fresh nonce, no verification token with another nonce can verify that user. |
| Scenarios.RegisteredUserFoundByUsername | routers/auth.py:41-59 | Right after registration, a login lookup by the new username finds the new account. |
| Scenarios.VerifyLinkAcceptedIffCurrentNonce | routers/auth.py:81-87 | For an unverified user, an unexpired link is accepted exactly when it carries the stored nonce. Otherwise it answers 400. |
| Scenarios.LoginUnverifiedResends | routers/auth.py:93-111 | The right password of an unverified user yields 403, stores the fresh nonce and mails a link for it. |
| Scenarios.RegisterLoginResendScenario | routers/auth.py:35-111 | After registering and then logging in unverified, the registration link answers 400 and the re-sent link verifies. |
| Scenarios.ProfileChangeRevokesSessions | routers/users.py:41-60 | After a profile update changes the username or email, every access token issued before it is refused. |
| Scenarios.NameOnlyUpdateKeepsSessions | routers/users.py:34-46 | An update that leaves username and email alone keeps existing sessions valid. |
| Scenarios.NameOnlyUpdateKeepsVerification | routers/users.py:34-46 | An update without an email keeps the verified flag and the pending nonce. |
| Scenarios.EmailChangeRequiresReverification | routers/users.py:54-60 | A changed email makes the account unverified with the fresh nonce, and the answer asks for logout. |
| Scenarios.EmptyProfileUpdateRefused | routers/users.py:62-63 | An update with no non-empty field other than the current email is refused and changes nothing. |
| Scenarios.TakenUsernameRefused | routers/users.py:41-44 | A username another user holds exactly is refused with 400 and nothing changes. |
| Scenarios.TakenEmailRefused | routers/users.py:41-52 | An email another user holds up to case is refused with 400 and nothing changes, unless the caller's own email also matches it or the username check refuses first. |
| Scenarios.ConfirmDeletionTwice | routers/users.py:103-115 | After a confirmed deletion the user and its portfolios are gone, and the same token then fails with 404, or 401 once expired. |
| Scenarios.ProfileUpdateSucceeds | routers/users.py:34-70 | An update that changes something succeeds when no other user holds the new username exactly or the new email up to case. |
| Scenarios.ForgotThenReset | routers/auth.py:122-159 | For an hour after it is sent, the mailed reset link resets the password of the user whose email matched. The new password then verifies. |
| Scenarios.RequestThenConfirmDeletion | routers/users.py:88-121 | For fifteen minutes after it is sent, the mailed deletion link deletes the requesting user and all that user's portfolios. |
| Scenarios.ResetTokenReusable | routers/auth.py:142-154 | A reset token carries no nonce, so an unexpired one works again after a successful reset. |
| Scenarios.LoginSessionAuthenticates | routers/auth.py:113-114 | The token returned by login authenticates the logged-in user until it expires, provided the row's email and username are non-empty. |
| Scenarios.NonAdminsRefused | routers/admin.py:16-22 | Every modelled admin route refuses an authenticated non-admin with 403 and changes nothing. |
| Scenarios.ForeignPortfolioUntouchable | routers/portfolios.py:61-66 | Updating or deleting another user's portfolio answers 404 and changes nothing. |

## Left out

- Mail delivery (SMTP, background tasks): the model records the mails a route hands to the sender in `Outcome.outbox`. A send failure after `await` is not modelled.
- JWT signatures and the HS256 algorithm: replaced by the signed/unverifiable split. Forged or re-signed tokens are `Unverifiable`.
- Other registered JWT claims that `jwt.decode` checks (`nbf`, `aud`, `sub`, string-encoded times): the server never mints them.
- PBKDF2 salting and iteration: replaced by a one-way digest of the plaintext.
- Randomness: the verification nonce is a parameter of the routes that draw it. Its freshness is assumed only where a property needs it.
- Clock and time zone: time is an integer count of seconds. `created_at` and `updated_at` are not modelled.
- `ILIKE` wildcards (`%`, `_`) in user-supplied identifiers, and Unicode case folding: folding is ASCII only.
- `EmailStr` syntax validation and normalisation: emails are plain strings. The one invalid email the routes can store, the text `None`, is modelled at the admin update that writes it.
- `UserResponse` checks after that admin update: a later response that includes a row with a NULL flag or the email `None` fails in the source. The model stores `false` and answers such requests normally.
- The `PasswordChange` and `PasswordResetConfirm` schemas (`schemas/user_schema.py:40-49`): no route uses them. `reset_password` and `change_password` take plain query strings with no length rule (`routers/auth.py:143-146`, `:163-165`), and the model matches that.
- Column length limits (`String(50)`, `String(120)`, `String(255)`): only the schema length rules of `UserCreate` are checked.
- Response shapes (`UserResponse`, `PortfolioDetailResponse` with the joined owner): routes answer ids or rows.
- `get_my_profile`, `list_all_portfolios` and `get_all_users_as_admin`: each returns a row or table as stored, with no logic beyond authentication.
- Non-integer `user_id` claims: such a claim finds no row. The server only mints integer ids, and database-side type coercion is not modelled.
- Negative path ids: ids are natural numbers, and a negative id finds no row in the source either.
- Concurrency between requests: each route is one atomic transition, so no two requests interleave.
- `Models.FindUser`: `.first()` without an `ORDER BY` has no defined order in SQL. The model picks the smallest id.
- `.all()` listings without `ORDER BY` (`routers/portfolios.py:36`, `:98-102`, `routers/admin.py:98`): the model lists ascending ids. SQL leaves the order unspecified, so the listing lemmas hold in the source only as sets.
- Id reuse: `nextUserId` and `nextPortfolioId` never decrease, so the model assumes ids are never reused. SQLite, which the source also accepts (`core/database.py:14`), can hand out the id of a deleted last row again without AUTOINCREMENT. A reset or deletion token still within its lifetime would then act on the new account.
- Sequence values consumed by failed inserts: PostgreSQL takes an id from the sequence before an `INSERT` runs and keeps it taken when the insert fails. Examples are `create_portfolio` with a null description against the `NOT NULL` column (`models/portfolio.py:12`, `routers/portfolios.py:23-27`) and a user insert refused by a unique constraint. The model returns the store unchanged on such failures, `nextPortfolioId` and `nextUserId` included, so ids handed out after a failed insert are smaller by one per failure than the ids PostgreSQL would hand out.
- `Security.HashPassword`: its contract is stated through `Security.VerifyPassword`, not on the hash itself.

=== FILE: admin.dfy ===
/**
 * The admin routes: every one first authenticates the caller and refuses
 * non-admins, then manages any user or portfolio. Unlike the self-service
 * routes, the admin user update runs no uniqueness check of its own; only
 * the database's constraints stand in its way.
 */
module Admin {
  import opened Base
  import opened Security
  import opened Schemas
  import opened Models
  import opened Dependencies
  import opened Portfolios

  /** `admin_required`: the authenticated caller, provided it is an admin. */
  function AdminRequired(s: Store, token: Token, now: int): (r: Result<nat>)
    ensures GetCurrentUser(s, token, now).Err? ==> r == GetCurrentUser(s, token, now)
    ensures GetCurrentUser(s, token, now).Ok? ==>
              var me := GetCurrentUser(s, token, now).value;
              && (s.users[me].isAdmin ==> r == Ok(me))
              && (!s.users[me].isAdmin ==> r == Err(AdminOnly))
  {
    match GetCurrentUser(s, token, now)
    case Err(e) => Err(e)
    case Ok(me) => if s.users[me].isAdmin then Ok(me) else Err(AdminOnly)
  }

  /** The caller is authenticated and is an admin: the gate every admin route passes. */
  ghost predicate CallerIsAdmin(s: Store, token: Token, now: int)
  {
    exists me :: AccessTokenFor(s, token, now, me) && s.users[me].isAdmin
  }

  /** `AdminRequired` lets a request through exactly when the caller is an admin. */
  lemma AdminRequiredExact(s: Store, token: Token, now: int)
    ensures AdminRequired(s, token, now).Ok? <==> CallerIsAdmin(s, token, now)
  {
  }

  /** The row `create_user_as_admin` inserts: the flags as sent, no nonce. */
  function AdminCreatedUser(input: AdminUserCreate): (u: User)
    ensures u.firstName == input.fields.firstName && u.lastName == input.fields.lastName
    ensures u.username == input.fields.username && u.email == input.fields.email
    ensures u.isAdmin == input.isAdmin && u.isVerified == input.isVerified
    ensures u.verifyNonce == None && VerifyPassword(input.fields.password, u.password)
  {
    User(input.fields.firstName, input.fields.lastName, input.fields.username, input.fields.email,
         HashPassword(input.fields.password), input.isAdmin, input.isVerified, None)
  }

  /** `create_user_as_admin`: answers with the new user's id. */
  function CreateUserAsAdmin(s: Store, token: Token, now: int, input: AdminUserCreate): (o: Outcome<nat>)
    ensures o.outbox == []
    ensures o.result.Err? ==> o.store == s
    ensures AdminRequired(s, token, now).Err? ==> o.result == Err(AdminRequired(s, token, now).reason)
    ensures AdminRequired(s, token, now).Ok? && ValidUserCreate(input.fields) && IdsAllocated(s) ==>
              (o.result == Err(DuplicateIdentity) <==>
                 exists j :: j in s.users && (s.users[j].username == input.fields.username
                                              || s.users[j].email == input.fields.email))
    ensures o.result.Ok? ==>
              var id := o.result.value;
              && AdminRequired(s, token, now).Ok? && ValidUserCreate(input.fields)
              && id == s.nextUserId
              && o.store.users == s.users[id := AdminCreatedUser(input)]
              && o.store.portfolios == s.portfolios
    ensures AdminRequired(s, token, now).Ok? && !ValidUserCreate(input.fields) ==> o.result == Err(ValidationFailed)
    ensures Valid(s) && AdminRequired(s, token, now).Ok? && ValidUserCreate(input.fields)
            && (forall j :: j in s.users ==> s.users[j].username != input.fields.username
                                             && s.users[j].email != input.fields.email)
            ==> o.result.Ok?
    ensures Valid(s) ==> Valid(o.store)
  {
    match AdminRequired(s, token, now)
    case Err(e) => Fail(s, e)
    case Ok(_) =>
      if !ValidUserCreate(input.fields) then Fail(s, ValidationFailed)
      else if FindUser(s, ByUsernameOrEmail(input.fields.username, input.fields.email)).Some?
      then Fail(s, DuplicateIdentity)
      else
        var (s', id) := InsertUser(s, AdminCreatedUser(input));
        var clashFree := forall j :: j in s.users ==>
                             s.users[j].username != input.fields.username && s.users[j].email != input.fields.email;
        assert Valid(s) && clashFree ==> Valid(s') by {
          if Valid(s) && clashFree { InsertUserValid(s, AdminCreatedUser(input)); }
        }
        Commit(s, s', Ok(id), [])
  }

  /** A body that leaves both flags out creates a verified non-admin: the schema defaults reach the row. */
  lemma CreateUserAsAdminDefaults(s: Store, token: Token, now: int, fields: UserCreate)
    requires CreateUserAsAdmin(s, token, now, AdminUserCreateWithDefaults(fields)).result.Ok?
    ensures var o := CreateUserAsAdmin(s, token, now, AdminUserCreateWithDefaults(fields));
            var u := o.store.users[o.result.value];
            && !u.isAdmin && u.isVerified && u.verifyNonce == None
            && u.firstName == fields.firstName && u.lastName == fields.lastName
            && u.username == fields.username && u.email == fields.email
            && VerifyPassword(fields.password, u.password)
  {
  }

  /**
   * The flag a `Patch` of a nullable boolean column leaves. A null is kept as
   * false: the routes' own truth tests read a NULL flag that way, and the one
   * place that does not, the response of the update itself, is `BreaksResponse`.
   */
  function PatchedFlag(field: Patch<Option<bool>>, current: bool): (b: bool)
    ensures field.Unset? ==> b == current
    ensures field.SetTo? ==> (b <==> field.value == Some(true))
  {
    match field
    case Unset => current
    case SetTo(v) => v == Some(true)
  }

  /**
   * The row after the `setattr` loop of `update_user_as_admin`. An explicit
   * null for a NOT NULL name column makes the commit fail (`None`). An
   * explicit null email passes through `str()` first and is stored as the
   * text "None".
   */
  function ApplyAdminUpdate(u: User, upd: AdminUserUpdate): (r: Option<User>)
    ensures r.None? <==> upd.firstName == SetTo(None) || upd.lastName == SetTo(None)
                         || upd.username == SetTo(None)
    ensures r.Some? ==>
              && (upd.firstName.Unset? ==> r.value.firstName == u.firstName)
              && (upd.firstName.SetTo? ==> Some(r.value.firstName) == upd.firstName.value)
              && (upd.lastName.Unset? ==> r.value.lastName == u.lastName)
              && (upd.lastName.SetTo? ==> Some(r.value.lastName) == upd.lastName.value)
              && (upd.username.Unset? ==> r.value.username == u.username)
              && (upd.username.SetTo? ==> Some(r.value.username) == upd.username.value)
              && (upd.email.Unset? ==> r.value.email == u.email)
              && (upd.email == SetTo(None) ==> r.value.email == "None")
              && (upd.email.SetTo? && upd.email.value.Some? ==> r.value.email == upd.email.value.value)
              && r.value.isAdmin == PatchedFlag(upd.isAdmin, u.isAdmin)
              && r.value.isVerified == PatchedFlag(upd.isVerified, u.isVerified)
              && r.value.password == u.password && r.value.verifyNonce == u.verifyNonce
  {
    var first := Patched(upd.firstName, Some(u.firstName));
    var last := Patched(upd.lastName, Some(u.lastName));
    var username := Patched(upd.username, Some(u.username));
    var email := match upd.email
                 case Unset => u.email
                 case SetTo(None) => "None"
                 case SetTo(Some(e)) => e;
    if first.None? || last.None? || username.None? then None
    else Some(u.(firstName := first.value, lastName := last.value, username := username.value,
                 email := email, isAdmin := PatchedFlag(upd.isAdmin, u.isAdmin),
                 isVerified := PatchedFlag(upd.isVerified, u.isVerified)))
  }

  /**
   * Whether the updated row fails `UserResponse` once committed: an explicit
   * null flag is stored as NULL where the response wants a boolean, and an
   * explicit null email is stored as `None`, which is not an email address.
   */
  predicate BreaksResponse(upd: AdminUserUpdate)
  {
    upd.email == SetTo(None) || upd.isAdmin == SetTo(None) || upd.isVerified == SetTo(None)
  }

  /**
   * `update_user_as_admin`: answers with the updated user's id. The row is
   * committed before the response is validated, so a request that breaks
   * the response model answers 500 after changing the store.
   */
  function UpdateUserAsAdmin(s: Store, token: Token, now: int, uid: nat, upd: AdminUserUpdate)
    : (o: Outcome<nat>)
    ensures o.outbox == []
    ensures o.result.Err? && o.result.reason != ResponseInvalid ==> o.store == s
    ensures AdminRequired(s, token, now).Err? ==> o.result == Err(AdminRequired(s, token, now).reason)
    ensures AdminRequired(s, token, now).Ok? && uid !in s.users ==> o.result == Err(UserNotFound)
    ensures AdminRequired(s, token, now).Ok? && uid in s.users ==>
              var u := ApplyAdminUpdate(s.users[uid], upd);
              && (u.None? ==> o == Fail(s, IntegrityViolation))
              && (u.Some? && !UniqueIdentities(s.users[uid := u.value]) ==> o == Fail(s, IntegrityViolation))
              && (u.Some? && UniqueIdentities(s.users[uid := u.value]) ==>
                    && o.store == PutUser(s, uid, u.value)
                    && (o.result.Ok? <==> !BreaksResponse(upd))
                    && (BreaksResponse(upd) ==> o.result == Err(ResponseInvalid)))
    ensures o.result.Ok? ==>
              && AdminRequired(s, token, now).Ok? && o.result.value == uid && uid in s.users
              && ApplyAdminUpdate(s.users[uid], upd).Some?
              && o.store == PutUser(s, uid, ApplyAdminUpdate(s.users[uid], upd).value)
    ensures Valid(s) ==> Valid(o.store)
  {
    match AdminRequired(s, token, now)
    case Err(e) => Fail(s, e)
    case Ok(_) =>
      if uid !in s.users then Fail(s, UserNotFound)
      else
        match ApplyAdminUpdate(s.users[uid], upd)
        case None => Fail(s, IntegrityViolation)
        case Some(u) =>
          Commit(s, PutUser(s, uid, u), if BreaksResponse(upd) then Err(ResponseInvalid) else Ok(uid), [])
  }

  /** `delete_user_as_admin`: the user and all of that user's portfolios, or 404. */
  function DeleteUserAsAdmin(s: Store, token: Token, now: int, uid: nat): (o: Outcome<()>)
    ensures o.outbox == []
    ensures o.result.Err? ==> o.store == s
    ensures AdminRequired(s, token, now).Err? ==> o.result == Err(AdminRequired(s, token, now).reason)
    ensures AdminRequired(s, token, now).Ok? ==>
              && (uid !in s.users ==> o.result == Err(UserNotFound))
              && (uid in s.users ==> o.result.Ok? && o.store == DeleteUserCascade(s, uid))
    ensures Valid(s) ==> Valid(o.store)
  {
    match AdminRequired(s, token, now)
    case Err(e) => Fail(s, e)
    case Ok(_) =>
      if uid !in s.users then Fail(s, UserNotFound)
      else Outcome(Ok(()), DeleteUserCascade(s, uid), [])
  }

  /** `get_user_portfolios_as_admin`: the portfolios owned by `uid`, in id order. */
  function UserPortfoliosAsAdmin(s: Store, token: Token, now: int, uid: nat): (r: Result<seq<nat>>)
    ensures AdminRequired(s, token, now).Err? ==> r == Err(AdminRequired(s, token, now).reason)
    ensures r.Ok? ==>
              && AdminRequired(s, token, now).Ok?
              && (forall i :: 0 <= i < |r.value| ==>
                    r.value[i] in s.portfolios && s.portfolios[r.value[i]].owner == uid)
              && (IdsAllocated(s) ==> forall p :: p in s.portfolios && s.portfolios[p].owner == uid
                                                  ==> p in r.value)
              && (forall i, k :: 0 <= i < k < |r.value| ==> r.value[i] < r.value[k])
    ensures AdminRequired(s, token, now).Ok? ==> r.Ok?
  {
    match AdminRequired(s, token, now)
    case Err(e) => Err(e)
    case Ok(_) => Ok(PortfoliosOf(s, uid))
  }

  /** `update_portfolio_as_admin`: any portfolio, only the fields sent. */
  function UpdatePortfolioAsAdmin(s: Store, token: Token, now: int, pid: nat, upd: PortfolioUpdate)
    : (o: Outcome<nat>)
    ensures o.outbox == []
    ensures o.result.Err? ==> o.store == s
    ensures AdminRequired(s, token, now).Err? ==> o.result == Err(AdminRequired(s, token, now).reason)
    ensures AdminRequired(s, token, now).Ok? && pid !in s.portfolios ==> o.result == Err(PortfolioNotFound)
    ensures o.result.Ok? ==>
              && AdminRequired(s, token, now).Ok? && pid in s.portfolios && o.result.value == pid
              && ApplyPortfolioUpdate(s.portfolios[pid], upd).Some?
              && o.store == s.(portfolios := s.portfolios[pid := ApplyPortfolioUpdate(s.portfolios[pid], upd).value])
    ensures AdminRequired(s, token, now).Ok? && pid in s.portfolios ==>
              (o.result.Ok? <==> ApplyPortfolioUpdate(s.portfolios[pid], upd).Some?)
              && (ApplyPortfolioUpdate(s.portfolios[pid], upd).None? ==> o.result == Err(IntegrityViolation))
    ensures Valid(s) ==> Valid(o.store)
  {
    match AdminRequired(s, token, now)
    case Err(e) => Fail(s, e)
    case Ok(_) =>
      if pid !in s.portfolios then Fail(s, PortfolioNotFound)
      else
        match ApplyPortfolioUpdate(s.portfolios[pid], upd)
        case None => Fail(s, IntegrityViolation)
        case Some(p) => Outcome(Ok(pid), s.(portfolios := s.portfolios[pid := p]), [])
  }

  /** `delete_portfolio_as_admin`: exactly that portfolio, or 404. */
  function DeletePortfolioAsAdmin(s: Store, token: Token, now: int, pid: nat): (o: Outcome<()>)
    ensures o.outbox == []
    ensures o.result.Err? ==> o.store == s
    ensures AdminRequired(s, token, now).Err? ==> o.result == Err(AdminRequired(s, token, now).reason)
    ensures AdminRequired(s, token, now).Ok? ==>
              && (pid !in s.portfolios ==> o.result == Err(PortfolioNotFound))
              && (pid in s.portfolios ==>
                    && o.result.Ok?
                    && o.store.users == s.users
                    && o.store.portfolios.Keys == s.portfolios.Keys - {pid}
                    && forall q :: q in o.store.portfolios ==> o.store.portfolios[q] == s.portfolios[q])
    ensures Valid(s) ==> Valid(o.store)
  {
    match AdminRequired(s, token, now)
    case Err(e) => Fail(s, e)
    case Ok(_) =>
      if pid !in s.portfolios then Fail(s, PortfolioNotFound)
      else Outcome(Ok(()), s.(portfolios := s.portfolios - {pid}), [])
  }

  /** An admin update never moves a portfolio between owners: every listing is unchanged. */
  lemma {:induction false} UpdatePortfolioAsAdminKeepsListings(s: Store, token: Token, now: int, pid: nat,
                                                               upd: PortfolioUpdate, uid: nat)
    requires UpdatePortfolioAsAdmin(s, token, now, pid, upd).result.Ok?
    ensures ListUserPortfoliosById(UpdatePortfolioAsAdmin(s, token, now, pid, upd).store, uid)
            == ListUserPortfoliosById(s, uid)
  {
    var o := UpdatePortfolioAsAdmin(s, token, now, pid, upd);
    OwnedFromFrame(o.store.portfolios, s.portfolios, uid, 0, s.nextPortfolioId);
  }

  /** An admin deletion removes exactly that portfolio from every listing. */
  lemma {:induction false} DeletePortfolioAsAdminShrinksListings(s: Store, token: Token, now: int, pid: nat,
                                                                 uid: nat)
    requires DeletePortfolioAsAdmin(s, token, now, pid).result.Ok?
    ensures ListUserPortfoliosById(DeletePortfolioAsAdmin(s, token, now, pid).store, uid)
            == Remove(ListUserPortfoliosById(s, uid), pid)
  {
    assert DeletePortfolioAsAdmin(s, token, now, pid).store == s.(portfolios := s.portfolios - {pid});
    OwnedFromRemove(s.portfolios, uid, pid, 0, s.nextPortfolioId);
  }
}

=== FILE: auth.dfy ===
/**
 * The authentication routes: registration, email verification, login,
 * and the forgot/reset/change password flows. Each route is a transition
 * from the store before the request to an `Outcome`. The fresh
 * verification nonce that `secrets.token_hex` would draw is a parameter.
 */
module Auth {
  import opened Base
  import opened Security
  import opened Schemas
  import opened Models
  import opened Dependencies

  /** Length of `secrets.token_hex(16)`: 16 random bytes as hex digits. */
  const NONCE_LENGTH: nat := 32

  /** A nonce as drawn at random: of the right length and stored on no user yet. */
  ghost predicate FreshNonce(s: Store, nonce: string)
  {
    |nonce| == NONCE_LENGTH && forall id :: id in s.users ==> s.users[id].verifyNonce != Some(nonce)
  }

  /** `get_user_by_username_or_email`: case-insensitive lookup on either column. */
  function GetUserByUsernameOrEmail(s: Store, identifier: string): (r: Option<nat>)
    ensures r.Some? ==> r.value in s.users
                        && (SameFolded(s.users[r.value].username, identifier)
                            || SameFolded(s.users[r.value].email, identifier))
    ensures IdsAllocated(s) ==>
              (r.None? <==> forall j :: j in s.users ==>
                             !SameFolded(s.users[j].username, identifier)
                             && !SameFolded(s.users[j].email, identifier))
  {
    FindUser(s, ByIdentifier(identifier))
  }

  /** Some existing user's username or email equals, up to case, the given username or email. */
  ghost predicate IdentityTaken(s: Store, username: string, email: string)
  {
    exists j :: j in s.users && (Matches(ByIdentifier(username), s.users[j])
                                 || Matches(ByIdentifier(email), s.users[j]))
  }

  /** The `email_verify` token mailed to user `id` to confirm `nonce`. */
  function VerifyLink(id: nat, nonce: string, now: int, cfg: Config): Token
  {
    CreateToken(map["user_id" := Num(id), "evt" := Text(nonce)], EMAIL_VERIFY, None, now, cfg)
  }

  /** The row `register_user` inserts for a registration request. */
  function RegisteredUser(input: UserCreate, nonce: string): User
  {
    NewUser(input.firstName, input.lastName, input.username, input.email,
            HashPassword(input.password)).(verifyNonce := Some(nonce))
  }

  /** `register_user`: answers with the new user's id. */
  function RegisterUser(s: Store, input: UserCreate, now: int, cfg: Config, nonce: string)
    : (o: Outcome<nat>)
    ensures o.result.Err? ==> o.store == s && o.outbox == []
    ensures !ValidUserCreate(input) ==> o.result == Err(ValidationFailed)
    ensures ValidUserCreate(input) && IdsAllocated(s) ==>
              (o.result == Err(AlreadyRegistered) <==> IdentityTaken(s, input.username, input.email))
    ensures Valid(s) && ValidUserCreate(input) && !IdentityTaken(s, input.username, input.email)
            ==> o.result.Ok?
    ensures o.result.Ok? ==>
              var id := o.result.value;
              && id == s.nextUserId && (IdsAllocated(s) ==> id !in s.users)
              && o.store.users == s.users[id := RegisteredUser(input, nonce)]
              && o.store.portfolios == s.portfolios
              && o.outbox == [Mail(input.email, VerifyAccount, Some(VerifyLink(id, nonce, now, cfg)))]
    ensures Valid(s) ==> Valid(o.store)
  {
    if !ValidUserCreate(input) then Fail(s, ValidationFailed)
    else if GetUserByUsernameOrEmail(s, input.username).Some?
         || GetUserByUsernameOrEmail(s, input.email).Some?
    then Fail(s, AlreadyRegistered)
    else
      var u := RegisteredUser(input, nonce);
      var (s', id) := InsertUser(s, u);
      assert Valid(s) && !IdentityTaken(s, input.username, input.email) ==> Valid(s') by {
        if Valid(s) && !IdentityTaken(s, input.username, input.email) {
          forall j | j in s.users
            ensures s.users[j].username != input.username && s.users[j].email != input.email
          {
            if s.users[j].username == input.username { EqualImpliesSameFolded(input.username, input.username); }
            if s.users[j].email == input.email { EqualImpliesSameFolded(input.email, input.email); }
          }
          InsertUserValid(s, u);
        }
      }
      Commit(s, s', Ok(id), [Mail(input.email, VerifyAccount, Some(VerifyLink(id, nonce, now, cfg)))])
  }

  /** What a successful verification request answers. */
  datatype VerifyReply = AlreadyVerified | NowVerified

  /**
   * The nonce check of `verify_email`: the token's `evt` claim is present
   * and non-empty, a non-empty nonce is stored, and the two are equal.
   */
  predicate NonceMatches(evt: Option<Claim>, stored: Option<string>)
  {
    Truthy(evt) && Present(stored) && evt == Some(Text(stored.value))
  }

  /** The store after user `id` is marked verified and its nonce consumed. */
  function MarkVerified(s: Store, id: nat): Store
    requires id in s.users
  {
    PutUser(s, id, s.users[id].(isVerified := true, verifyNonce := None))
  }

  /** `verify_email`. */
  function VerifyEmail(s: Store, token: Token, now: int): (o: Outcome<VerifyReply>)
    ensures o.outbox == []
    ensures o.result.Err? ==> o.store == s
    ensures o.result.Err? ==> o.result.reason in {TokenInvalid, UserNotFound, LinkNoLongerValid, IntegrityViolation}
    ensures o.result == Ok(AlreadyVerified) ==> o.store == s && o.outbox == []
    ensures DecodeToken(token, Some(EMAIL_VERIFY), now).Err? ==> o.result == Err(TokenInvalid)
    ensures DecodeToken(token, Some(EMAIL_VERIFY), now).Ok? ==>
              var id := LookupUser(s, Get(token.claims, "user_id"));
              && (id.None? ==> o.result == Err(UserNotFound))
              && (id.Some? && s.users[id.value].isVerified ==> o == Outcome(Ok(AlreadyVerified), s, []))
              && (id.Some? && !s.users[id.value].isVerified
                  && !NonceMatches(Get(token.claims, "evt"), s.users[id.value].verifyNonce)
                  ==> o.result == Err(LinkNoLongerValid))
              && (id.Some? && !s.users[id.value].isVerified && UniqueIdentities(s.users)
                  && NonceMatches(Get(token.claims, "evt"), s.users[id.value].verifyNonce)
                  ==> o.result == Ok(NowVerified))
    ensures o.result == Ok(NowVerified) ==>
              && token.Signed? && Get(token.claims, "type") == Some(Text(EMAIL_VERIFY))
              && var id := LookupUser(s, Get(token.claims, "user_id"));
                 && id.Some? && !s.users[id.value].isVerified
                 && Present(s.users[id.value].verifyNonce)
                 && Get(token.claims, "evt") == Some(Text(s.users[id.value].verifyNonce.value))
                 && o.store == MarkVerified(s, id.value)
    ensures Valid(s) ==> Valid(o.store)
  {
    match DecodeToken(token, Some(EMAIL_VERIFY), now)
    case Err(e) => Fail(s, e)
    case Ok(c) =>
      match LookupUser(s, Get(c, "user_id"))
      case None => Fail(s, UserNotFound)
      case Some(id) =>
        if s.users[id].isVerified then Outcome(Ok(AlreadyVerified), s, [])
        else if !NonceMatches(Get(c, "evt"), s.users[id].verifyNonce) then Fail(s, LinkNoLongerValid)
        else Commit(s, MarkVerified(s, id), Ok(NowVerified), [])
  }

  /** A successful login: the access token and the user it was issued to. */
  datatype Session = Session(accessToken: Token, userId: nat)

  /** `login_user`. */
  function LoginUser(s: Store, identifier: string, password: string, now: int, cfg: Config,
                     nonce: string): (o: Outcome<Session>)
    ensures o.result.Err? && o.result.reason != EmailNotVerified ==> o.store == s && o.outbox == []
    ensures IdsAllocated(s) && (forall j :: j in s.users ==> !Matches(ByIdentifier(identifier), s.users[j]))
            ==> o.result == Err(BadCredentials)
    ensures var f := GetUserByUsernameOrEmail(s, identifier);
            && (f.None? ==> o == Fail(s, BadCredentials))
            && (f.Some? && !VerifyPassword(password, s.users[f.value].password) ==> o == Fail(s, BadCredentials))
            && (f.Some? && VerifyPassword(password, s.users[f.value].password) && s.users[f.value].isVerified
                ==> o.result.Ok? && o.result.value.userId == f.value)
            && (f.Some? && VerifyPassword(password, s.users[f.value].password) && !s.users[f.value].isVerified
                && UniqueIdentities(s.users)
                ==> o.result == Err(EmailNotVerified))
    ensures o.result.Ok? ==>
              var id := o.result.value.userId;
              && o.store == s && o.outbox == []
              && id in s.users && Matches(ByIdentifier(identifier), s.users[id])
              && VerifyPassword(password, s.users[id].password) && s.users[id].isVerified
              && o.result.value.accessToken == CreateToken(SessionClaims(s, id), ACCESS, None, now, cfg)
    ensures o.result == Err(EmailNotVerified) ==>
              var f := GetUserByUsernameOrEmail(s, identifier);
              && f.Some? && VerifyPassword(password, s.users[f.value].password) && !s.users[f.value].isVerified
              && o.store == PutUser(s, f.value, s.users[f.value].(verifyNonce := Some(nonce)))
              && o.outbox == [Mail(s.users[f.value].email, VerifyAccountAgain,
                                   Some(VerifyLink(f.value, nonce, now, cfg)))]
    ensures Valid(s) ==> Valid(o.store)
  {
    match GetUserByUsernameOrEmail(s, identifier)
    case None => Fail(s, BadCredentials)
    case Some(id) =>
      var u := s.users[id];
      if !VerifyPassword(password, u.password) then Fail(s, BadCredentials)
      else if !u.isVerified then
        var s' := PutUser(s, id, u.(verifyNonce := Some(nonce)));
        assert UniqueIdentities(s.users) ==> UniqueIdentities(s'.users) by {
          if UniqueIdentities(s.users) {
            SameIdentityKeepsUnique(s.users, id, u.(verifyNonce := Some(nonce)));
          }
        }
        Commit(s, s', Err(EmailNotVerified),
               [Mail(u.email, VerifyAccountAgain, Some(VerifyLink(id, nonce, now, cfg)))])
      else
        Outcome(Ok(Session(CreateToken(SessionClaims(s, id), ACCESS, None, now, cfg), id)), s, [])
  }

  /** The `password_reset` token mailed to user `id`: only the user id, one hour of life. */
  function ResetLinkFor(id: nat, now: int, cfg: Config): Token
  {
    CreateToken(map["user_id" := Num(id)], PASSWORD_RESET, Some(ONE_HOUR), now, cfg)
  }

  /** `forgot_password`. */
  function ForgotPassword(s: Store, email: string, now: int, cfg: Config): (o: Outcome<()>)
    ensures o.store == s
    ensures o.result.Err? ==> o.result.reason == EmailNotFound && o.outbox == []
    ensures IdsAllocated(s) ==>
              (o.result.Err? <==> forall j :: j in s.users ==> !SameFolded(s.users[j].email, email))
    ensures o.result.Ok? ==>
              exists id :: id in s.users && SameFolded(s.users[id].email, email)
                && o.outbox == [Mail(s.users[id].email, ResetLink, Some(ResetLinkFor(id, now, cfg)))]
  {
    match FindUser(s, ByEmailFolded(email))
    case None => Fail(s, EmailNotFound)
    case Some(id) =>
      Outcome(Ok(()), s, [Mail(s.users[id].email, ResetLink, Some(ResetLinkFor(id, now, cfg)))])
  }

  /** `reset_password`: overwrites the hash of the user a reset token names. */
  function ResetPassword(s: Store, token: Token, newPassword: string, now: int): (o: Outcome<()>)
    ensures o.result.Err? ==> o.store == s && o.outbox == []
    ensures o.result.Err? ==> o.result.reason in {TokenInvalid, UserNotFound, IntegrityViolation}
    ensures o.result.Ok? ==>
              && token.Signed? && Get(token.claims, "type") == Some(Text(PASSWORD_RESET))
              && var id := LookupUser(s, Get(token.claims, "user_id"));
                 && id.Some?
                 && o.store == PutUser(s, id.value, s.users[id.value].(password := HashPassword(newPassword)))
                 && o.outbox == [Mail(s.users[id.value].email, PasswordWasReset, None)]
    ensures DecodeToken(token, Some(PASSWORD_RESET), now).Err? ==> o.result == Err(TokenInvalid)
    ensures DecodeToken(token, Some(PASSWORD_RESET), now).Ok? ==>
              var id := LookupUser(s, Get(token.claims, "user_id"));
              && (id.None? ==> o.result == Err(UserNotFound))
              && (id.Some? && UniqueIdentities(s.users) ==> o.result.Ok?)
    ensures Valid(s) ==> Valid(o.store)
  {
    match DecodeToken(token, Some(PASSWORD_RESET), now)
    case Err(e) => Fail(s, e)
    case Ok(c) =>
      match LookupUser(s, Get(c, "user_id"))
      case None => Fail(s, UserNotFound)
      case Some(id) =>
        var u := s.users[id];
        Commit(s, PutUser(s, id, u.(password := HashPassword(newPassword))), Ok(()),
               [Mail(u.email, PasswordWasReset, None)])
  }

  /** `change_password` for the user the access token authenticates. */
  function ChangePassword(s: Store, token: Token, currentPassword: string, newPassword: string,
                          now: int): (o: Outcome<()>)
    ensures o.result.Err? ==> o.store == s && o.outbox == []
    ensures o.result.Ok? ==>
              && GetCurrentUser(s, token, now).Ok?
              && var id := GetCurrentUser(s, token, now).value;
                 && VerifyPassword(currentPassword, s.users[id].password)
                 && newPassword != currentPassword
                 && o.store == PutUser(s, id, s.users[id].(password := HashPassword(newPassword)))
                 && !VerifyPassword(currentPassword, o.store.users[id].password)
                 && VerifyPassword(newPassword, o.store.users[id].password)
                 && o.outbox == [Mail(s.users[id].email, PasswordWasChanged, None)]
    ensures GetCurrentUser(s, token, now).Ok? ==>
              var id := GetCurrentUser(s, token, now).value;
              && (!VerifyPassword(currentPassword, s.users[id].password) ==> o.result == Err(WrongCurrentPassword))
              && (VerifyPassword(currentPassword, s.users[id].password) && newPassword == currentPassword
                  ==> o.result == Err(SamePassword))
              && (VerifyPassword(currentPassword, s.users[id].password) && newPassword != currentPassword
                  && UniqueIdentities(s.users)
                  ==> o.result.Ok?)
    ensures GetCurrentUser(s, token, now).Err? ==> o.result == Err(GetCurrentUser(s, token, now).reason)
    ensures Valid(s) ==> Valid(o.store)
  {
    match GetCurrentUser(s, token, now)
    case Err(e) => Fail(s, e)
    case Ok(id) =>
      var u := s.users[id];
      if !VerifyPassword(currentPassword, u.password) then Fail(s, WrongCurrentPassword)
      else if VerifyPassword(newPassword, u.password) then Fail(s, SamePassword)
      else Commit(s, PutUser(s, id, u.(password := HashPassword(newPassword))), Ok(()),
                  [Mail(u.email, PasswordWasChanged, None)])
  }
}

=== FILE: base.dfy ===
/**
 * Shared vocabulary of the portfolio backend model: optional values, the
 * success-or-error result every handler returns, the error reasons the
 * HTTP layer reports (with their status codes), and the case folding that
 * the database's ILIKE comparisons perform.
 */
module Base {

  /** A value that may be absent (Python's `None`). */
  datatype Option<+T> = None | Some(value: T)

  /**
   * Why a request failed. Each reason corresponds to one `HTTPException`
   * (or error response) raised somewhere in the routers; two reasons are
   * different exactly when the source raises them with different detail
   * texts or status codes.
   */
  datatype Reason =
    | TokenInvalid          // decode_token: bad signature, expired, wrong type
    | SessionInvalid        // get_current_user: missing claim or unknown user
    | IdentityChanged       // get_current_user: snapshot no longer matches
    | AlreadyRegistered     // register: username or email taken
    | UserNotFound          // token names a user that does not exist
    | LinkNoLongerValid     // verify_email: nonce missing or superseded
    | BadCredentials        // login: unknown identifier or wrong password
    | EmailNotVerified      // login: unverified account, link re-sent
    | EmailNotFound         // forgot_password: no such email
    | WrongCurrentPassword  // change_password: current password rejected
    | SamePassword          // change_password: new equals current
    | UsernameTaken         // profile update: username held by another user
    | EmailTaken            // profile update: email held by another user
    | NothingToUpdate       // profile update: no effective field
    | AdminOnly             // admin_required: caller is not an admin
    | DuplicateIdentity     // admin create: username or email exists
    | PortfolioNotFound     // portfolio absent (or not the caller's)
    | ValidationFailed      // request body rejected by the schema
    | IntegrityViolation    // a database constraint rejected the commit
    | ResponseInvalid       // the committed row fails the route's response model

  /** The HTTP status code each reason is reported with. */
  function Status(r: Reason): (code: nat)
    ensures 400 <= code < 600
    ensures code == 401 <==> r in {TokenInvalid, SessionInvalid, IdentityChanged, BadCredentials,
                                   WrongCurrentPassword}
    ensures code == 400 <==> r in {AlreadyRegistered, LinkNoLongerValid, SamePassword, UsernameTaken,
                                   EmailTaken, NothingToUpdate, DuplicateIdentity}
    ensures code == 403 <==> r in {EmailNotVerified, AdminOnly}
    ensures code == 404 <==> r in {UserNotFound, EmailNotFound, PortfolioNotFound}
    ensures code == 422 <==> r == ValidationFailed
    ensures code == 500 <==> r in {IntegrityViolation, ResponseInvalid}
  {
    match r
    case TokenInvalid => 401
    case SessionInvalid => 401
    case IdentityChanged => 401
    case AlreadyRegistered => 400
    case UserNotFound => 404
    case LinkNoLongerValid => 400
    case BadCredentials => 401
    case EmailNotVerified => 403
    case EmailNotFound => 404
    case WrongCurrentPassword => 401
    case SamePassword => 400
    case UsernameTaken => 400
    case EmailTaken => 400
    case NothingToUpdate => 400
    case AdminOnly => 403
    case DuplicateIdentity => 400
    case PortfolioNotFound => 404
    case ValidationFailed => 422
    case IntegrityViolation => 500
    case ResponseInvalid => 500
  }

  /** What a handler produces: a response value or the reason it failed. */
  datatype Result<+T> = Ok(value: T) | Err(reason: Reason)

  /** Python truthiness of an optional string: present and non-empty. */
  predicate Present(s: Option<string>)
  {
    s.Some? && s.value != ""
  }

  /** ASCII lower-casing of one character. */
  function LowerChar(c: char): char
  {
    if 'A' <= c <= 'Z' then (c as int + 32) as char else c
  }

  /** Lower-cases every character of a string, keeping its length. */
  function Lower(s: string): (r: string)
    ensures |r| == |s|
    ensures forall i :: 0 <= i < |s| ==> r[i] == LowerChar(s[i])
  {
    seq(|s|, i requires 0 <= i < |s| => LowerChar(s[i]))
  }

  /**
   * Case-insensitive equality, the meaning of `column.ilike(text)` when the
   * text holds no wildcard.
   */
  predicate SameFolded(a: string, b: string)
  {
    Lower(a) == Lower(b)
  }

  /** Equal strings are equal up to case, so an ILIKE test is never stricter than `==`. */
  lemma EqualImpliesSameFolded(a: string, b: string)
    requires a == b
    ensures SameFolded(a, b)
  {
  }
}

=== FILE: dependencies.dfy ===
/**
 * The request-authorization dependency: turning a bearer access token into
 * the live user it names. There is no revocation list; a token stops
 * working as soon as the user's email or username no longer equals the
 * snapshot it carries.
 */
module Dependencies {
  import opened Base
  import opened Security
  import opened Models

  /**
   * When `token` authenticates user `id`: a signed, unexpired access token
   * whose `user_id`, `email` and `username` claims are non-empty and equal
   * the user's current row.
   */
  ghost predicate AccessTokenFor(s: Store, token: Token, now: int, id: nat)
  {
    && token.Signed? && TimesAccepted(token.claims, now)
    && Get(token.claims, "type") == Some(Text(ACCESS))
    && id != 0 && id in s.users
    && Get(token.claims, "user_id") == Some(Num(id))
    && s.users[id].email != "" && Get(token.claims, "email") == Some(Text(s.users[id].email))
    && s.users[id].username != "" && Get(token.claims, "username") == Some(Text(s.users[id].username))
  }

  /** `get_current_user`: the id of the user an access token authenticates. */
  function GetCurrentUser(s: Store, token: Token, now: int): (r: Result<nat>)
    ensures r.Ok? ==> AccessTokenFor(s, token, now, r.value)
    ensures r.Err? ==> r.reason in {TokenInvalid, SessionInvalid, IdentityChanged}
    ensures DecodeToken(token, Some(ACCESS), now).Err? ==> r == Err(TokenInvalid)
    ensures DecodeToken(token, Some(ACCESS), now).Ok? ==>
              var userId := Get(token.claims, "user_id");
              var email := Get(token.claims, "email");
              var username := Get(token.claims, "username");
              && (!Truthy(userId) || !Truthy(email) || !Truthy(username) ==> r == Err(SessionInvalid))
              && (LookupUser(s, userId).None? ==> r == Err(SessionInvalid))
              && (Truthy(userId) && Truthy(email) && Truthy(username) && LookupUser(s, userId).Some?
                  && (email != Some(Text(s.users[LookupUser(s, userId).value].email))
                      || username != Some(Text(s.users[LookupUser(s, userId).value].username)))
                  ==> r == Err(IdentityChanged))
  {
    match DecodeToken(token, Some(ACCESS), now)
    case Err(e) => Err(e)
    case Ok(c) =>
      var userId := Get(c, "user_id");
      var email := Get(c, "email");
      var username := Get(c, "username");
      if !Truthy(userId) || !Truthy(email) || !Truthy(username) then Err(SessionInvalid)
      else
        match LookupUser(s, userId)
        case None => Err(SessionInvalid)
        case Some(id) =>
          if email != Some(Text(s.users[id].email)) || username != Some(Text(s.users[id].username))
          then Err(IdentityChanged)
          else Ok(id)
  }

  /** The check accepts a token for a user exactly when `AccessTokenFor` holds. */
  lemma GetCurrentUserExact(s: Store, token: Token, now: int, id: nat)
    ensures GetCurrentUser(s, token, now) == Ok(id) <==> AccessTokenFor(s, token, now, id)
  {
  }

  /**
   * Snapshot revocation: a validly signed, unexpired access token naming an
   * existing user is refused once that user's email or username differs
   * from the token's claims.
   */
  lemma StaleSnapshotRejected(s: Store, token: Token, now: int, id: nat)
    requires token.Signed? && TimesAccepted(token.claims, now)
    requires Get(token.claims, "type") == Some(Text(ACCESS))
    requires id != 0 && id in s.users && Get(token.claims, "user_id") == Some(Num(id))
    requires Truthy(Get(token.claims, "email")) && Truthy(Get(token.claims, "username"))
    requires Get(token.claims, "email") != Some(Text(s.users[id].email))
             || Get(token.claims, "username") != Some(Text(s.users[id].username))
    ensures GetCurrentUser(s, token, now) == Err(IdentityChanged)
  {
  }

  /** A token minted for any purpose other than `access` is refused. */
  lemma OnlyAccessTokensAccepted(s: Store, data: Claims, tokenType: string,
                                 expiresDelta: Option<int>, issued: int, now: int, cfg: Config)
    requires tokenType != ACCESS
    ensures GetCurrentUser(s, CreateToken(data, tokenType, expiresDelta, issued, cfg), now)
            == Err(TokenInvalid)
  {
  }

  /** The verification flag is not consulted: flipping it never changes the outcome. */
  lemma VerificationNotConsulted(s: Store, token: Token, now: int, id: nat, flag: bool)
    requires id in s.users
    ensures GetCurrentUser(PutUser(s, id, s.users[id].(isVerified := flag)), token, now)
            == GetCurrentUser(s, token, now)
  {
  }

  /** The claims of the access token `login_user` mints for user `id`. */
  function SessionClaims(s: Store, id: nat): Claims
    requires id in s.users
  {
    map["user_id" := Num(id), "email" := Text(s.users[id].email),
        "username" := Text(s.users[id].username)]
  }

  /**
   * An access token minted from the user's current row authenticates that
   * user until it expires, as long as the row is left as it was.
   */
  lemma FreshSessionAccepted(s: Store, id: nat, issued: int, now: int, cfg: Config)
    requires id != 0 && id in s.users
    requires s.users[id].email != "" && s.users[id].username != ""
    requires now <= issued + 60 * cfg.accessTokenExpireMinutes
    ensures GetCurrentUser(s, CreateToken(SessionClaims(s, id), ACCESS, None, issued, cfg), now) == Ok(id)
  {
  }
}

=== FILE: models.dfy ===
/**
 * The persisted state: the `users` and `portfolios` tables, their
 * constraints as store invariants, the lookups the routers run against
 * them, the commit that enforces the unique constraints, and the outbox of
 * notification mails a request leaves behind.
 */
module Models {
  import opened Base
  import opened Security

  /** A row of `users`. `verifyNonce` is the nullable `email_verify_token` column. */
  datatype User = User(firstName: string, lastName: string, username: string, email: string,
                       password: Digest, isAdmin: bool, isVerified: bool,
                       verifyNonce: Option<string>)

  /** A user row as the table's column defaults complete it: not an admin, not verified, no nonce. */
  function NewUser(firstName: string, lastName: string, username: string, email: string,
                   password: Digest): (u: User)
    ensures u.firstName == firstName && u.lastName == lastName
    ensures u.username == username && u.email == email && u.password == password
    ensures !u.isAdmin && !u.isVerified && u.verifyNonce == None
  {
    User(firstName, lastName, username, email, password, false, false, None)
  }

  /**
   * A row of `portfolios`. Title and description are NOT NULL columns, so
   * they are plain strings here; `owner` is the non-null `user_id` foreign key.
   */
  datatype Portfolio = Portfolio(title: string, description: string, detail: Option<string>,
                                 link: Option<string>, owner: nat)

  /**
   * Both tables, keyed by primary key, with the next value each id
   * sequence will hand out.
   */
  datatype Store = Store(users: map<nat, User>, portfolios: map<nat, Portfolio>,
                         nextUserId: nat, nextPortfolioId: nat)

  /** The two UNIQUE constraints of `users`: no two rows share a username, nor an email. */
  predicate UniqueIdentities(users: map<nat, User>)
  {
    forall a, b :: a in users && b in users && a != b ==>
      users[a].username != users[b].username && users[a].email != users[b].email
  }

  /** Rewriting a row without touching its username or email keeps both constraints satisfied. */
  lemma SameIdentityKeepsUnique(users: map<nat, User>, id: nat, u: User)
    requires UniqueIdentities(users) && id in users
    requires u.username == users[id].username && u.email == users[id].email
    ensures UniqueIdentities(users[id := u])
  {
  }

  /** Every id in use was handed out by its sequence, which starts at 1. */
  ghost predicate IdsAllocated(s: Store)
  {
    && 0 < s.nextUserId && 0 < s.nextPortfolioId
    && (forall id :: id in s.users ==> 0 < id < s.nextUserId)
    && (forall id :: id in s.portfolios ==> 0 < id < s.nextPortfolioId)
  }

  /** The foreign key `portfolios.user_id -> users.id`: no portfolio is orphaned. */
  ghost predicate OwnersExist(s: Store)
  {
    forall p :: p in s.portfolios ==> s.portfolios[p].owner in s.users
  }

  /** The store invariant every handler preserves. */
  ghost predicate Valid(s: Store)
  {
    IdsAllocated(s) && OwnersExist(s) && UniqueIdentities(s.users)
  }

  /** The notifications the routers send, one kind per mail template. */
  datatype MailKind =
    | VerifyAccount        // after registration
    | VerifyAccountAgain   // after a login attempt by an unverified user
    | VerifyNewEmail       // after a profile email change
    | ResetLink            // after forgot-password
    | PasswordWasReset     // after reset-password
    | PasswordWasChanged   // after change-password
    | ConfirmDeletion      // after request-delete
    | AccountWasDeleted    // after confirm-delete

  /** One mail handed to the sender: recipient, template, and the token its link embeds. */
  datatype Mail = Mail(to: string, kind: MailKind, link: Option<Token>)

  /** What a request leaves behind: its response, the committed store, the mails queued. */
  datatype Outcome<T> = Outcome(result: Result<T>, store: Store, outbox: seq<Mail>)

  /** A request that raised before committing: the error, no change, no mail. */
  function Fail<T>(s: Store, r: Reason): (o: Outcome<T>)
    ensures o.result.Err? && o.result.reason == r
    ensures o.store == s && o.outbox == []
  {
    Outcome(Err(r), s, [])
  }

  /**
   * `db.commit()`: the database accepts the new state unless it breaks a
   * unique constraint, in which case the transaction rolls back and the
   * request fails with a server error before any mail is queued. On
   * success the request answers with `response`.
   */
  function Commit<T>(before: Store, after: Store, response: Result<T>, mails: seq<Mail>): (o: Outcome<T>)
    ensures UniqueIdentities(after.users) ==> o == Outcome(response, after, mails)
    ensures !UniqueIdentities(after.users) ==> o == Fail(before, IntegrityViolation)
    ensures UniqueIdentities(o.store.users) || o.store == before
    ensures UniqueIdentities(before.users) ==> UniqueIdentities(o.store.users)
    ensures || (o.store == after && o.result == response && o.outbox == mails)
            || (o.store == before && o.result == Err(IntegrityViolation) && o.outbox == [])
  {
    if UniqueIdentities(after.users) then Outcome(response, after, mails)
    else Fail(before, IntegrityViolation)
  }

  /** The user lookups the routers issue, each a filter followed by `.first()`. */
  datatype Query =
    | ByIdentifier(text: string)              // username ILIKE text OR email ILIKE text
    | ByEmailFolded(text: string)             // email ILIKE text
    | ByUsername(text: string)                // username == text
    | ByUsernameOrEmail(username: string, email: string)  // username == .. OR email == ..

  predicate Matches(q: Query, u: User)
  {
    match q
    case ByIdentifier(t) => SameFolded(u.username, t) || SameFolded(u.email, t)
    case ByEmailFolded(t) => SameFolded(u.email, t)
    case ByUsername(t) => u.username == t
    case ByUsernameOrEmail(n, e) => u.username == n || u.email == e
  }

  /** The smallest id in `[from, bound)` of a user matching `q`. */
  function FirstMatch(users: map<nat, User>, q: Query, from: nat, bound: nat): (r: Option<nat>)
    decreases bound - from
    ensures r.Some? ==> from <= r.value < bound && r.value in users && Matches(q, users[r.value])
    ensures r.Some? ==> forall j :: from <= j < r.value && j in users ==> !Matches(q, users[j])
    ensures r.None? ==> forall j :: from <= j < bound && j in users ==> !Matches(q, users[j])
  {
    if from >= bound then None
    else if from in users && Matches(q, users[from]) then Some(from)
    else FirstMatch(users, q, from + 1, bound)
  }

  /**
   * `db.query(User).filter(q).first()`. No ORDER BY is given; the model
   * takes rows in primary-key order, so the first match is the smallest id.
   */
  function FindUser(s: Store, q: Query): (r: Option<nat>)
    ensures r.Some? ==> r.value in s.users && Matches(q, s.users[r.value])
    ensures r.Some? ==> forall j :: j in s.users && j < r.value ==> !Matches(q, s.users[j])
    ensures IdsAllocated(s) && r.None? ==> forall j :: j in s.users ==> !Matches(q, s.users[j])
  {
    FirstMatch(s.users, q, 0, s.nextUserId)
  }

  /**
   * `filter_by(id=payload.get("user_id")).first()`: the user a token's
   * `user_id` claim names, if any. A missing or non-integer claim matches
   * no row.
   */
  function LookupUser(s: Store, userId: Option<Claim>): (r: Option<nat>)
    ensures r.Some? <==> userId.Some? && userId.value.Num? && userId.value.n >= 0
                         && userId.value.n as nat in s.users
    ensures r.Some? ==> userId.value == Num(r.value)
  {
    match userId
    case Some(Num(n)) => if n >= 0 && n as nat in s.users then Some(n as nat) else None
    case _ => None
  }

  /** The ids in `[from, bound)` of portfolios owned by `uid`, ascending. */
  function OwnedFrom(portfolios: map<nat, Portfolio>, uid: nat, from: nat, bound: nat): (ids: seq<nat>)
    decreases bound - from
    ensures forall i :: 0 <= i < |ids| ==>
              from <= ids[i] < bound && ids[i] in portfolios && portfolios[ids[i]].owner == uid
    ensures forall j :: from <= j < bound && j in portfolios && portfolios[j].owner == uid ==> j in ids
    ensures forall i, k :: 0 <= i < k < |ids| ==> ids[i] < ids[k]
  {
    if from >= bound then []
    else
      var rest := OwnedFrom(portfolios, uid, from + 1, bound);
      if from in portfolios && portfolios[from].owner == uid then [from] + rest else rest
  }

  /** The scan only depends on which ids in its range hold a portfolio of `uid`. */
  lemma {:induction false} OwnedFromFrame(p1: map<nat, Portfolio>, p2: map<nat, Portfolio>, uid: nat,
                                          from: nat, bound: nat)
    requires forall j :: from <= j < bound ==>
               ((j in p1 && p1[j].owner == uid) <==> (j in p2 && p2[j].owner == uid))
    ensures OwnedFrom(p1, uid, from, bound) == OwnedFrom(p2, uid, from, bound)
    decreases bound - from
  {
    if from < bound {
      OwnedFromFrame(p1, p2, uid, from + 1, bound);
    }
  }

  /** A scan over a range where `uid` owns nothing lists nothing. */
  lemma {:induction false} OwnedFromNone(p: map<nat, Portfolio>, uid: nat, from: nat, bound: nat)
    requires forall j :: from <= j < bound && j in p ==> p[j].owner != uid
    ensures OwnedFrom(p, uid, from, bound) == []
    decreases bound - from
  {
    if from < bound {
      OwnedFromNone(p, uid, from + 1, bound);
    }
  }

  /** Widening the scan by one id appends that id when it holds a portfolio of `uid`. */
  lemma {:induction false} OwnedFromExtend(p: map<nat, Portfolio>, uid: nat, from: nat, bound: nat)
    requires from <= bound
    ensures OwnedFrom(p, uid, from, bound + 1)
            == OwnedFrom(p, uid, from, bound) + (if bound in p && p[bound].owner == uid then [bound] else [])
    decreases bound - from
  {
    if from < bound {
      OwnedFromExtend(p, uid, from + 1, bound);
    }
  }

  /** `xs` without the occurrences of `x`, in the same order. */
  function Remove(xs: seq<nat>, x: nat): (r: seq<nat>)
    ensures forall y :: y in r <==> y in xs && y != x
  {
    if xs == [] then [] else (if xs[0] == x then [] else [xs[0]]) + Remove(xs[1..], x)
  }

  /** One step of the scan: the id at `from` is listed first exactly when it holds a portfolio of `uid`. */
  lemma OwnedFromStep(m: map<nat, Portfolio>, uid: nat, from: nat, bound: nat)
    requires from < bound
    ensures OwnedFrom(m, uid, from, bound)
            == (if from in m && m[from].owner == uid then [from] else []) + OwnedFrom(m, uid, from + 1, bound)
  {
  }

  /** `Remove` on a sequence with a known head. */
  lemma RemoveCons(x: nat, xs: seq<nat>, y: nat)
    ensures Remove([x] + xs, y) == (if x == y then [] else [x]) + Remove(xs, y)
  {
    assert ([x] + xs)[1..] == xs;
  }

  /** One step of the induction below: the claim for `from + 1` gives it for `from`. */
  lemma OwnedFromRemoveStep(p: map<nat, Portfolio>, uid: nat, pid: nat, from: nat, bound: nat)
    requires from < bound
    requires OwnedFrom(p - {pid}, uid, from + 1, bound) == Remove(OwnedFrom(p, uid, from + 1, bound), pid)
    ensures OwnedFrom(p - {pid}, uid, from, bound) == Remove(OwnedFrom(p, uid, from, bound), pid)
  {
    OwnedFromStep(p - {pid}, uid, from, bound);
    if from in p && p[from].owner == uid {
      RemoveCons(from, OwnedFrom(p, uid, from + 1, bound), pid);
    }
  }

  /** Deleting one portfolio row removes exactly its id from the scan and keeps the order. */
  lemma {:induction false} OwnedFromRemove(p: map<nat, Portfolio>, uid: nat, pid: nat, from: nat, bound: nat)
    ensures OwnedFrom(p - {pid}, uid, from, bound) == Remove(OwnedFrom(p, uid, from, bound), pid)
    decreases bound - from
  {
    if from < bound {
      OwnedFromRemove(p, uid, pid, from + 1, bound);
      OwnedFromRemoveStep(p, uid, pid, from, bound);
    }
  }

  /** `db.query(Portfolio).filter(Portfolio.user_id == uid).all()`, in id order. */
  function PortfoliosOf(s: Store, uid: nat): (ids: seq<nat>)
    ensures forall i :: 0 <= i < |ids| ==> ids[i] in s.portfolios && s.portfolios[ids[i]].owner == uid
    ensures IdsAllocated(s) ==>
              forall p :: p in s.portfolios && s.portfolios[p].owner == uid ==> p in ids
    ensures forall i, k :: 0 <= i < k < |ids| ==> ids[i] < ids[k]
  {
    OwnedFrom(s.portfolios, uid, 0, s.nextPortfolioId)
  }

  /** `db.add(row)` for a user: the row gets the next id. */
  function InsertUser(s: Store, u: User): (r: (Store, nat))
    ensures r.1 == s.nextUserId && r.0.nextUserId == s.nextUserId + 1
    ensures r.0.users == s.users[r.1 := u]
    ensures r.0.portfolios == s.portfolios && r.0.nextPortfolioId == s.nextPortfolioId
  {
    (s.(users := s.users[s.nextUserId := u], nextUserId := s.nextUserId + 1), s.nextUserId)
  }

  /** A fresh user row keeps the invariant as long as it clashes with no existing identity. */
  lemma InsertUserValid(s: Store, u: User)
    requires Valid(s)
    requires forall j :: j in s.users ==> s.users[j].username != u.username && s.users[j].email != u.email
    ensures Valid(InsertUser(s, u).0)
  {
  }

  /** `db.add(row)` for a portfolio: the row gets the next id. */
  function InsertPortfolio(s: Store, p: Portfolio): (r: (Store, nat))
    ensures r.1 == s.nextPortfolioId && r.0.nextPortfolioId == s.nextPortfolioId + 1
    ensures r.0.portfolios == s.portfolios[r.1 := p]
    ensures r.0.users == s.users && r.0.nextUserId == s.nextUserId
  {
    (s.(portfolios := s.portfolios[s.nextPortfolioId := p], nextPortfolioId := s.nextPortfolioId + 1),
     s.nextPortfolioId)
  }

  /**
   * Deleting a user's portfolios, then the user: the cascade of the
   * `users -> portfolios` relationship.
   */
  function DeleteUserCascade(s: Store, id: nat): (r: Store)
    ensures r.users.Keys == s.users.Keys - {id}
    ensures forall j :: j in r.users ==> r.users[j] == s.users[j]
    ensures forall p :: p in r.portfolios <==> p in s.portfolios && s.portfolios[p].owner != id
    ensures forall p :: p in r.portfolios ==> r.portfolios[p] == s.portfolios[p]
    ensures r.nextUserId == s.nextUserId && r.nextPortfolioId == s.nextPortfolioId
    ensures Valid(s) ==> Valid(r)
  {
    s.(users := map j | j in s.users && j != id :: s.users[j],
       portfolios := map p | p in s.portfolios && s.portfolios[p].owner != id :: s.portfolios[p])
  }

  /** After the cascade the deleted user owns nothing, and every other user's portfolios are listed as before. */
  lemma {:induction false} DeleteUserCascadeListings(s: Store, id: nat, uid: nat)
    ensures PortfoliosOf(DeleteUserCascade(s, id), id) == []
    ensures uid != id ==> PortfoliosOf(DeleteUserCascade(s, id), uid) == PortfoliosOf(s, uid)
  {
    var r := DeleteUserCascade(s, id);
    OwnedFromNone(r.portfolios, id, 0, r.nextPortfolioId);
    if uid != id {
      OwnedFromFrame(r.portfolios, s.portfolios, uid, 0, s.nextPortfolioId);
    }
  }

  /** Replacing one user row in place. */
  function PutUser(s: Store, id: nat, u: User): (r: Store)
    ensures r.users == s.users[id := u] && r.portfolios == s.portfolios
    ensures r.nextUserId == s.nextUserId && r.nextPortfolioId == s.nextPortfolioId
  {
    s.(users := s.users[id := u])
  }

  /** Rewriting a user row keeps the invariant whenever the unique constraints still hold. */
  lemma PutUserValid(s: Store, id: nat, u: User)
    requires Valid(s) && id in s.users
    requires UniqueIdentities(s.users[id := u])
    ensures Valid(PutUser(s, id, u))
  {
  }
}

=== FILE: portfolios.dfy ===
/**
 * The portfolio routes: creation by the authenticated user, listing,
 * public detail lookup, and owner-only update and deletion.
 */
module Portfolios {
  import opened Base
  import opened Security
  import opened Schemas
  import opened Models
  import opened Dependencies

  /** The value a nullable column holds after a partial update of it. */
  function Patched(field: Patch<Option<string>>, current: Option<string>): (r: Option<string>)
    ensures field.Unset? ==> r == current
    ensures field.SetTo? ==> r == field.value
  {
    match field
    case Unset => current
    case SetTo(v) => v
  }

  /**
   * The row after the `setattr` loop of a portfolio update. Sending an
   * explicit null for the NOT NULL title or description makes the commit
   * fail, which is `None` here.
   */
  function ApplyPortfolioUpdate(p: Portfolio, upd: PortfolioUpdate): (r: Option<Portfolio>)
    ensures r.None? <==> upd.title == SetTo(None) || upd.description == SetTo(None)
    ensures r.Some? ==>
              && r.value.owner == p.owner
              && Some(r.value.title) == Patched(upd.title, Some(p.title))
              && Some(r.value.description) == Patched(upd.description, Some(p.description))
              && r.value.detail == Patched(upd.detail, p.detail)
              && r.value.link == Patched(upd.link, p.link)
  {
    var title := Patched(upd.title, Some(p.title));
    var description := Patched(upd.description, Some(p.description));
    if title.None? || description.None? then None
    else Some(p.(title := title.value, description := description.value,
                 detail := Patched(upd.detail, p.detail), link := Patched(upd.link, p.link)))
  }

  /** `create_portfolio`: the new portfolio always belongs to the caller. */
  function CreatePortfolio(s: Store, token: Token, now: int, input: PortfolioCreate): (o: Outcome<nat>)
    ensures o.outbox == []
    ensures o.result.Err? ==> o.store == s
    ensures o.result.Err? ==> o.result.reason in {TokenInvalid, SessionInvalid, IdentityChanged, IntegrityViolation}
    ensures GetCurrentUser(s, token, now).Ok? && input.description.Some? ==> o.result.Ok?
    ensures o.result.Ok? ==>
              var pid := o.result.value;
              && pid == s.nextPortfolioId && (IdsAllocated(s) ==> pid !in s.portfolios)
              && input.description.Some? && GetCurrentUser(s, token, now).Ok?
              && o.store.users == s.users
              && o.store.portfolios == s.portfolios[pid := Portfolio(input.title, input.description.value,
                                                          input.detail, input.link,
                                                          GetCurrentUser(s, token, now).value)]
    ensures Valid(s) ==> Valid(o.store)
  {
    match GetCurrentUser(s, token, now)
    case Err(e) => Fail(s, e)
    case Ok(me) =>
      match input.description
      case None => Fail(s, IntegrityViolation)
      case Some(d) =>
        var (s', pid) := InsertPortfolio(s, Portfolio(input.title, d, input.detail, input.link, me));
        Outcome(Ok(pid), s', [])
  }

  /** `get_my_portfolios`: exactly the caller's portfolios, in id order. */
  function GetMyPortfolios(s: Store, token: Token, now: int): (r: Result<seq<nat>>)
    ensures r.Err? <==> GetCurrentUser(s, token, now).Err?
    ensures r.Ok? ==>
              var me := GetCurrentUser(s, token, now).value;
              && (forall i :: 0 <= i < |r.value| ==>
                    r.value[i] in s.portfolios && s.portfolios[r.value[i]].owner == me)
              && (IdsAllocated(s) ==> forall p :: p in s.portfolios && s.portfolios[p].owner == me
                                                  ==> p in r.value)
              && (forall i, k :: 0 <= i < k < |r.value| ==> r.value[i] < r.value[k])
  {
    match GetCurrentUser(s, token, now)
    case Err(e) => Err(e)
    case Ok(me) => Ok(PortfoliosOf(s, me))
  }

  /** `get_portfolio_detail`: public lookup by id. */
  function GetPortfolioDetail(s: Store, pid: nat): (r: Result<Portfolio>)
    ensures r.Err? <==> pid !in s.portfolios
    ensures r.Err? ==> r.reason == PortfolioNotFound
    ensures r.Ok? ==> r.value == s.portfolios[pid]
  {
    if pid in s.portfolios then Ok(s.portfolios[pid]) else Err(PortfolioNotFound)
  }

  /** The portfolio `pid` exists and belongs to user `me`: the filter of the owner-only routes. */
  predicate OwnedPortfolio(s: Store, pid: nat, me: nat)
  {
    pid in s.portfolios && s.portfolios[pid].owner == me
  }

  /** `update_portfolio`: only the caller's own portfolio, only the fields sent. */
  function UpdatePortfolio(s: Store, token: Token, now: int, pid: nat, upd: PortfolioUpdate)
    : (o: Outcome<nat>)
    ensures o.outbox == []
    ensures o.result.Err? ==> o.store == s
    ensures GetCurrentUser(s, token, now).Ok? && !OwnedPortfolio(s, pid, GetCurrentUser(s, token, now).value)
            ==> o.result == Err(PortfolioNotFound)
    ensures o.result.Ok? ==>
              && o.result.value == pid
              && GetCurrentUser(s, token, now).Ok?
              && OwnedPortfolio(s, pid, GetCurrentUser(s, token, now).value)
              && ApplyPortfolioUpdate(s.portfolios[pid], upd).Some?
              && o.store == s.(portfolios := s.portfolios[pid := ApplyPortfolioUpdate(s.portfolios[pid], upd).value])
    ensures GetCurrentUser(s, token, now).Err? ==> o.result == Err(GetCurrentUser(s, token, now).reason)
    ensures GetCurrentUser(s, token, now).Ok? && OwnedPortfolio(s, pid, GetCurrentUser(s, token, now).value) ==>
              (o.result.Ok? <==> ApplyPortfolioUpdate(s.portfolios[pid], upd).Some?)
              && (ApplyPortfolioUpdate(s.portfolios[pid], upd).None? ==> o.result == Err(IntegrityViolation))
    ensures Valid(s) ==> Valid(o.store)
  {
    match GetCurrentUser(s, token, now)
    case Err(e) => Fail(s, e)
    case Ok(me) =>
      if !OwnedPortfolio(s, pid, me) then Fail(s, PortfolioNotFound)
      else
        match ApplyPortfolioUpdate(s.portfolios[pid], upd)
        case None => Fail(s, IntegrityViolation)
        case Some(p) => Outcome(Ok(pid), s.(portfolios := s.portfolios[pid := p]), [])
  }

  /** `delete_portfolio`: only the caller's own portfolio, and only that one. */
  function DeletePortfolio(s: Store, token: Token, now: int, pid: nat): (o: Outcome<()>)
    ensures o.outbox == []
    ensures o.result.Err? ==> o.store == s
    ensures o.result.Ok? <==>
              GetCurrentUser(s, token, now).Ok? && OwnedPortfolio(s, pid, GetCurrentUser(s, token, now).value)
    ensures GetCurrentUser(s, token, now).Ok? && !OwnedPortfolio(s, pid, GetCurrentUser(s, token, now).value)
            ==> o.result == Err(PortfolioNotFound)
    ensures o.result.Ok? ==>
              && o.store.users == s.users
              && o.store.portfolios.Keys == s.portfolios.Keys - {pid}
              && forall q :: q in o.store.portfolios ==> o.store.portfolios[q] == s.portfolios[q]
    ensures Valid(s) ==> Valid(o.store)
  {
    match GetCurrentUser(s, token, now)
    case Err(e) => Fail(s, e)
    case Ok(me) =>
      if !OwnedPortfolio(s, pid, me) then Fail(s, PortfolioNotFound)
      else Outcome(Ok(()), s.(portfolios := s.portfolios - {pid}), [])
  }

  /** `list_user_portfolios_by_id`: public, exactly the portfolios whose owner is `uid`, in id order. */
  function ListUserPortfoliosById(s: Store, uid: nat): (ids: seq<nat>)
    ensures forall i :: 0 <= i < |ids| ==> ids[i] in s.portfolios && s.portfolios[ids[i]].owner == uid
    ensures IdsAllocated(s) ==> forall p :: p in s.portfolios && s.portfolios[p].owner == uid ==> p in ids
    ensures forall i, k :: 0 <= i < k < |ids| ==> ids[i] < ids[k]
  {
    PortfoliosOf(s, uid)
  }

  /** A created portfolio is appended to its owner's listing; every other listing is unchanged. */
  lemma {:induction false} CreatePortfolioAppendsToListing(s: Store, token: Token, now: int,
                                                           input: PortfolioCreate, uid: nat)
    requires CreatePortfolio(s, token, now, input).result.Ok?
    ensures var o := CreatePortfolio(s, token, now, input);
            var me := GetCurrentUser(s, token, now).value;
            ListUserPortfoliosById(o.store, uid)
            == ListUserPortfoliosById(s, uid) + (if uid == me then [o.result.value] else [])
  {
    var o := CreatePortfolio(s, token, now, input);
    OwnedFromFrame(o.store.portfolios, s.portfolios, uid, 0, s.nextPortfolioId);
    OwnedFromExtend(o.store.portfolios, uid, 0, s.nextPortfolioId);
  }

  /** An update never moves a portfolio between owners: every listing is unchanged. */
  lemma {:induction false} UpdatePortfolioKeepsListings(s: Store, token: Token, now: int, pid: nat,
                                                        upd: PortfolioUpdate, uid: nat)
    requires UpdatePortfolio(s, token, now, pid, upd).result.Ok?
    ensures ListUserPortfoliosById(UpdatePortfolio(s, token, now, pid, upd).store, uid)
            == ListUserPortfoliosById(s, uid)
  {
    var o := UpdatePortfolio(s, token, now, pid, upd);
    OwnedFromFrame(o.store.portfolios, s.portfolios, uid, 0, s.nextPortfolioId);
  }

  /** A deletion removes exactly that portfolio from its owner's listing and changes no other listing. */
  lemma {:induction false} DeletePortfolioShrinksListing(s: Store, token: Token, now: int, pid: nat, uid: nat)
    requires DeletePortfolio(s, token, now, pid).result.Ok?
    ensures ListUserPortfoliosById(DeletePortfolio(s, token, now, pid).store, uid)
            == Remove(ListUserPortfoliosById(s, uid), pid)
    ensures uid != GetCurrentUser(s, token, now).value ==>
              ListUserPortfoliosById(DeletePortfolio(s, token, now, pid).store, uid)
              == ListUserPortfoliosById(s, uid)
  {
    var o := DeletePortfolio(s, token, now, pid);
    var me := GetCurrentUser(s, token, now).value;
    assert o.store == s.(portfolios := s.portfolios - {pid});
    OwnedFromRemove(s.portfolios, uid, pid, 0, s.nextPortfolioId);
    if uid != me {
      assert s.portfolios[pid].owner == me;
      OwnedFromFrame(s.portfolios - {pid}, s.portfolios, uid, 0, s.nextPortfolioId);
    }
  }
}

=== FILE: scenarios.dfy ===
/**
 * Properties of sequences of requests: what one request does to the
 * tokens issued by an earlier one.
 */
module Scenarios {
  import opened Base
  import opened Security
  import opened Schemas
  import opened Models
  import opened Dependencies
  import opened Auth
  import opened Users
  import opened Portfolios
  import opened Admin

  /** A verification link mailed at registration verifies the new account while it is unexpired. */
  lemma {:induction false} RegisterThenVerify(s: Store, input: UserCreate, now: int, cfg: Config,
                                              nonce: string, later: int)
    requires Valid(s) && nonce != ""
    requires RegisterUser(s, input, now, cfg, nonce).result.Ok?
    requires later <= now + FIFTEEN_MINUTES
    ensures var o := RegisterUser(s, input, now, cfg, nonce);
            && o.outbox[0].link.Some?
            && VerifyEmail(o.store, o.outbox[0].link.value, later).result == Ok(NowVerified)
  {
    var o := RegisterUser(s, input, now, cfg, nonce);
    VerifyLinkAcceptedIffCurrentNonce(o.store, o.result.value, nonce, nonce, now, later, cfg);
  }

  /** Once an account is verified, presenting the same link again is a successful no-op. */
  lemma VerifyTwiceIsNoop(s: Store, token: Token, now: int, later: int)
    requires VerifyEmail(s, token, now).result == Ok(NowVerified)
    requires DecodeToken(token, Some(EMAIL_VERIFY), later).Ok?
    ensures var s' := VerifyEmail(s, token, now).store;
            VerifyEmail(s', token, later) == Outcome(Ok(AlreadyVerified), s', [])
  {
  }

  /**
   * Resend on login orphans older links: after an unverified user's login
   * attempt stores a new nonce, no verification token carrying any other
   * nonce can verify that user, however unexpired it is.
   */
  lemma LoginResendOrphansOtherLinks(s: Store, identifier: string, password: string, now: int,
                                     cfg: Config, nonce: string, token: Token, later: int, id: nat)
    requires LoginUser(s, identifier, password, now, cfg, nonce).result == Err(EmailNotVerified)
    requires GetUserByUsernameOrEmail(s, identifier) == Some(id)
    requires token.Signed? && Get(token.claims, "user_id") == Some(Num(id))
    requires Get(token.claims, "evt") != Some(Text(nonce))
    ensures var s' := LoginUser(s, identifier, password, now, cfg, nonce).store;
            VerifyEmail(s', token, later).result.Err?
  {
  }

  /** Right after registration the new account is the one a login by its username finds. */
  lemma {:induction false} RegisteredUserFoundByUsername(s: Store, input: UserCreate, now: int,
                                                         cfg: Config, nonce: string)
    requires Valid(s)
    requires RegisterUser(s, input, now, cfg, nonce).result.Ok?
    ensures var r := RegisterUser(s, input, now, cfg, nonce);
            GetUserByUsernameOrEmail(r.store, input.username) == Some(r.result.value)
  {
    var r := RegisterUser(s, input, now, cfg, nonce);
    var id := r.result.value;
    var q := ByIdentifier(input.username);
    assert GetUserByUsernameOrEmail(s, input.username).None?;
    assert r.store.users[id] == RegisteredUser(input, nonce);
    assert Matches(q, r.store.users[id]);
  }

  /**
   * A verification link for an unverified user is accepted, while it is
   * unexpired, exactly when it carries the nonce stored on that user.
   */
  lemma VerifyLinkAcceptedIffCurrentNonce(s: Store, id: nat, stored: string, sent: string,
                                          issued: int, later: int, cfg: Config)
    requires UniqueIdentities(s.users) && id in s.users
    requires !s.users[id].isVerified && s.users[id].verifyNonce == Some(stored) && stored != ""
    requires later <= issued + FIFTEEN_MINUTES
    ensures VerifyEmail(s, VerifyLink(id, sent, issued, cfg), later).result
            == if sent == stored then Ok(NowVerified) else Err(LinkNoLongerValid)
  {
  }

  /**
   * A login with the right password by an unverified user is refused with
   * 403, stores the fresh nonce and mails a new link.
   */
  lemma LoginUnverifiedResends(s: Store, identifier: string, password: string, now: int,
                               cfg: Config, nonce: string, id: nat)
    requires UniqueIdentities(s.users)
    requires GetUserByUsernameOrEmail(s, identifier) == Some(id)
    requires VerifyPassword(password, s.users[id].password) && !s.users[id].isVerified
    ensures LoginUser(s, identifier, password, now, cfg, nonce)
            == Outcome(Err(EmailNotVerified), PutUser(s, id, s.users[id].(verifyNonce := Some(nonce))),
                       [Mail(s.users[id].email, VerifyAccountAgain, Some(VerifyLink(id, nonce, now, cfg)))])
  {
  }

  /**
   * The scenario of the resend flow: register, then log in before
   * verifying. The first link is now rejected as no longer valid; the one
   * mailed with the retry verifies the account.
   */
  lemma {:induction false} RegisterLoginResendScenario(s: Store, input: UserCreate, now: int,
                                                       cfg: Config, n1: string, n2: string, later: int)
    requires Valid(s) && FreshNonce(s, n1)
    requires RegisterUser(s, input, now, cfg, n1).result.Ok?
    requires FreshNonce(RegisterUser(s, input, now, cfg, n1).store, n2)
    requires later <= now + FIFTEEN_MINUTES
    ensures var r := RegisterUser(s, input, now, cfg, n1);
            var id := r.result.value;
            var l := LoginUser(r.store, input.username, input.password, now, cfg, n2);
            && l.result == Err(EmailNotVerified)
            && VerifyEmail(l.store, VerifyLink(id, n1, now, cfg), later).result == Err(LinkNoLongerValid)
            && VerifyEmail(l.store, VerifyLink(id, n2, now, cfg), later).result == Ok(NowVerified)
  {
    var r := RegisterUser(s, input, now, cfg, n1);
    var id := r.result.value;
    var s1 := r.store;
    RegisteredUserFoundByUsername(s, input, now, cfg, n1);
    assert s1.users[id] == RegisteredUser(input, n1);
    assert n2 != n1 && n1 != "" && n2 != "" by {
      assert s1.users[id].verifyNonce == Some(n1);
    }
    LoginUnverifiedResends(s1, input.username, input.password, now, cfg, n2, id);
    var s2 := PutUser(s1, id, s1.users[id].(verifyNonce := Some(n2)));
    SameIdentityKeepsUnique(s1.users, id, s1.users[id].(verifyNonce := Some(n2)));
    VerifyLinkAcceptedIffCurrentNonce(s2, id, n2, n1, now, later, cfg);
    VerifyLinkAcceptedIffCurrentNonce(s2, id, n2, n2, now, later, cfg);
  }

  /**
   * Logout on identity change: after a profile update that gives the user
   * a different username or email, every access token issued before it
   * (carrying the old snapshot) is refused.
   */
  lemma ProfileChangeRevokesSessions(s: Store, session: Token, now: int, id: nat,
                                     token: Token, upd: UserUpdate, cfg: Config, nonce: string,
                                     later: int)
    requires AccessTokenFor(s, session, now, id)
    requires UpdateMyProfile(s, token, upd, now, cfg, nonce).result.Ok?
    requires GetCurrentUser(s, token, now) == Ok(id)
    requires EditProfile(s.users[id], upd, nonce).username != s.users[id].username
             || EditProfile(s.users[id], upd, nonce).email != s.users[id].email
    ensures GetCurrentUser(UpdateMyProfile(s, token, upd, now, cfg, nonce).store, session, later).Err?
  {
  }

  /** Updates that leave username and email alone keep every session valid. */
  lemma NameOnlyUpdateKeepsSessions(s: Store, session: Token, now: int, id: nat,
                                    token: Token, upd: UserUpdate, cfg: Config, nonce: string)
    requires AccessTokenFor(s, session, now, id)
    requires UpdateMyProfile(s, token, upd, now, cfg, nonce).result.Ok?
    requires GetCurrentUser(s, token, now) == Ok(id)
    requires !Present(upd.username) && !EmailChanges(s.users[id], upd)
    ensures GetCurrentUser(UpdateMyProfile(s, token, upd, now, cfg, nonce).store, session, now) == Ok(id)
  {
    var s' := UpdateMyProfile(s, token, upd, now, cfg, nonce).store;
    assert AccessTokenFor(s', session, now, id);
    GetCurrentUserExact(s', session, now, id);
  }

  /** A name or username update leaves the verification state and the pending nonce untouched. */
  lemma NameOnlyUpdateKeepsVerification(s: Store, token: Token, upd: UserUpdate, now: int,
                                        cfg: Config, nonce: string)
    requires UpdateMyProfile(s, token, upd, now, cfg, nonce).result.Ok?
    requires !Present(upd.email)
    ensures var id := GetCurrentUser(s, token, now).value;
            var u' := UpdateMyProfile(s, token, upd, now, cfg, nonce).store.users[id];
            u'.isVerified == s.users[id].isVerified && u'.verifyNonce == s.users[id].verifyNonce
  {
  }

  /** An email change sends the account back to unverified with the fresh nonce. */
  lemma EmailChangeRequiresReverification(s: Store, token: Token, upd: UserUpdate, now: int,
                                          cfg: Config, nonce: string)
    requires UpdateMyProfile(s, token, upd, now, cfg, nonce).result.Ok?
    requires EmailChanges(s.users[GetCurrentUser(s, token, now).value], upd)
    ensures var o := UpdateMyProfile(s, token, upd, now, cfg, nonce);
            var id := GetCurrentUser(s, token, now).value;
            && o.result == Ok(LogoutRequired)
            && o.store.users[id].email == upd.email.value
            && !o.store.users[id].isVerified
            && o.store.users[id].verifyNonce == Some(nonce)
  {
  }

  /**
   * An update that changes nothing effective is refused and commits
   * nothing; submitting only the current email is such an update.
   */
  lemma EmptyProfileUpdateRefused(s: Store, token: Token, upd: UserUpdate, now: int, cfg: Config,
                                  nonce: string)
    requires Valid(s) && GetCurrentUser(s, token, now).Ok?
    requires !Present(upd.firstName) && !Present(upd.lastName) && !Present(upd.username)
    requires upd.email.None? || upd.email == Some(s.users[GetCurrentUser(s, token, now).value].email)
    ensures var o := UpdateMyProfile(s, token, upd, now, cfg, nonce);
            o.result.Err? && o.store == s
  {
  }

  /** Another user's exact username is refused with 400, and nothing changes. */
  lemma TakenUsernameRefused(s: Store, token: Token, upd: UserUpdate, now: int, cfg: Config,
                             nonce: string, other: nat)
    requires Valid(s) && GetCurrentUser(s, token, now).Ok?
    requires Present(upd.username)
    requires other in s.users && other != GetCurrentUser(s, token, now).value
    requires s.users[other].username == upd.username.value
    ensures UpdateMyProfile(s, token, upd, now, cfg, nonce) == Fail(s, UsernameTaken)
  {
    var found := FindUser(s, ByUsername(upd.username.value));
    assert Matches(ByUsername(upd.username.value), s.users[other]);
    assert found == Some(other);
  }

  /**
   * An email that another user holds up to case is refused with 400, and
   * nothing changes, when the caller's own email is not also such a match
   * and no username the request carries is already refused.
   */
  lemma TakenEmailRefused(s: Store, token: Token, upd: UserUpdate, now: int, cfg: Config,
                          nonce: string, other: nat)
    requires Valid(s) && GetCurrentUser(s, token, now).Ok?
    requires !Present(upd.username)
             || !HeldByOther(FindUser(s, ByUsername(upd.username.value)), GetCurrentUser(s, token, now).value)
    requires Present(upd.email)
    requires other in s.users && other != GetCurrentUser(s, token, now).value
    requires SameFolded(s.users[other].email, upd.email.value)
    requires !SameFolded(s.users[GetCurrentUser(s, token, now).value].email, upd.email.value)
    ensures UpdateMyProfile(s, token, upd, now, cfg, nonce) == Fail(s, EmailTaken)
  {
    var me := GetCurrentUser(s, token, now).value;
    var found := FindUser(s, ByEmailFolded(upd.email.value));
    assert Matches(ByEmailFolded(upd.email.value), s.users[other]);
    assert HeldByOther(found, me);
  }

  /**
   * A profile update that changes something succeeds when no other user
   * holds the requested username exactly or the requested email up to case.
   */
  lemma ProfileUpdateSucceeds(s: Store, token: Token, upd: UserUpdate, now: int, cfg: Config,
                              nonce: string)
    requires Valid(s) && GetCurrentUser(s, token, now).Ok?
    requires UpdatesSomething(s.users[GetCurrentUser(s, token, now).value], upd)
    requires Present(upd.username) ==>
               forall j :: j in s.users && j != GetCurrentUser(s, token, now).value ==>
                 s.users[j].username != upd.username.value
    requires Present(upd.email) ==>
               forall j :: j in s.users && j != GetCurrentUser(s, token, now).value ==>
                 !SameFolded(s.users[j].email, upd.email.value)
    ensures UpdateMyProfile(s, token, upd, now, cfg, nonce).result.Ok?
  {
    var me := GetCurrentUser(s, token, now).value;
    if Present(upd.email) {
      forall j | j in s.users && j != me
        ensures s.users[j].email != upd.email.value
      {
        if s.users[j].email == upd.email.value {
          EqualImpliesSameFolded(s.users[j].email, upd.email.value);
        }
      }
    }
    assert UniqueIdentities(s.users[me := EditProfile(s.users[me], upd, nonce)]);
  }

  /**
   * Confirming a deletion twice: the second confirmation with the same
   * token finds no user, and no portfolio of the deleted user remains.
   */
  lemma ConfirmDeletionTwice(s: Store, token: Token, now: int, later: int)
    requires Valid(s)
    requires ConfirmAccountDeletion(s, token, now).result.Ok?
    ensures var o := ConfirmAccountDeletion(s, token, now);
            var id := LookupUser(s, Get(token.claims, "user_id")).value;
            && id !in o.store.users
            && (forall p :: p in o.store.portfolios ==> o.store.portfolios[p].owner != id)
            && ConfirmAccountDeletion(o.store, token, later).result.Err?
            && (DecodeToken(token, Some(ACCOUNT_DELETE), later).Ok? ==>
                  ConfirmAccountDeletion(o.store, token, later).result == Err(UserNotFound))
  {
  }

  /** Reset tokens carry no nonce: an unexpired one can be used again after a successful reset. */
  lemma ResetTokenReusable(s: Store, token: Token, p1: string, p2: string, now: int, later: int)
    requires Valid(s)
    requires ResetPassword(s, token, p1, now).result.Ok?
    requires DecodeToken(token, Some(PASSWORD_RESET), later).Ok?
    ensures var s' := ResetPassword(s, token, p1, now).store;
            ResetPassword(s', token, p2, later).result.Ok?
  {
  }

  /**
   * The link `forgot_password` mails resets the password of the user whose
   * email matched, for up to an hour after it was sent.
   */
  lemma ForgotThenReset(s: Store, email: string, now: int, cfg: Config, newPassword: string,
                        later: int)
    requires Valid(s)
    requires ForgotPassword(s, email, now, cfg).result.Ok?
    requires later <= now + ONE_HOUR
    ensures var mail := ForgotPassword(s, email, now, cfg).outbox[0];
            var r := ResetPassword(s, mail.link.value, newPassword, later);
            var id := LookupUser(s, Get(mail.link.value.claims, "user_id"));
            && r.result.Ok? && id.Some?
            && SameFolded(s.users[id.value].email, email)
            && VerifyPassword(newPassword, r.store.users[id.value].password)
            && r.outbox == [Mail(mail.to, PasswordWasReset, None)]
  {
    var o := ForgotPassword(s, email, now, cfg);
    var id :| id in s.users && SameFolded(s.users[id].email, email)
               && o.outbox == [Mail(s.users[id].email, ResetLink, Some(ResetLinkFor(id, now, cfg)))];
    DecodeCreateRoundTrip(map["user_id" := Num(id)], PASSWORD_RESET, Some(ONE_HOUR), now, later, cfg);
  }

  /**
   * The link `request_account_deletion` mails deletes the requesting user,
   * with all of that user's portfolios, for fifteen minutes after it was sent.
   */
  lemma RequestThenConfirmDeletion(s: Store, session: Token, now: int, cfg: Config, later: int)
    requires RequestAccountDeletion(s, session, now, cfg).result.Ok?
    requires later <= now + FIFTEEN_MINUTES
    ensures var me := GetCurrentUser(s, session, now).value;
            var link := RequestAccountDeletion(s, session, now, cfg).outbox[0].link.value;
            var r := ConfirmAccountDeletion(s, link, later);
            && r.result.Ok?
            && r.store == DeleteUserCascade(s, me)
            && me !in r.store.users
            && r.outbox == [Mail(s.users[me].email, AccountWasDeleted, None)]
  {
    var me := GetCurrentUser(s, session, now).value;
    DecodeCreateRoundTrip(map["user_id" := Num(me)], ACCOUNT_DELETE, None, now, later, cfg);
  }

  /** A session issued at login authenticates its user until it expires. */
  lemma LoginSessionAuthenticates(s: Store, identifier: string, password: string, now: int,
                                  cfg: Config, nonce: string, later: int)
    requires Valid(s)
    requires LoginUser(s, identifier, password, now, cfg, nonce).result.Ok?
    requires later <= now + 60 * cfg.accessTokenExpireMinutes
    ensures var session := LoginUser(s, identifier, password, now, cfg, nonce).result.value;
            var u := s.users[session.userId];
            u.email != "" && u.username != "" ==>
              GetCurrentUser(s, session.accessToken, later) == Ok(session.userId)
  {
    var session := LoginUser(s, identifier, password, now, cfg, nonce).result.value;
    var id := session.userId;
    if s.users[id].email != "" && s.users[id].username != "" {
      FreshSessionAccepted(s, id, now, later, cfg);
    }
  }

  /** Every admin route refuses a caller who is authenticated but not an admin, changing nothing. */
  lemma NonAdminsRefused(s: Store, token: Token, now: int, id: nat, create: AdminUserCreate,
                         userUpd: AdminUserUpdate, pUpd: PortfolioUpdate, target: nat)
    requires GetCurrentUser(s, token, now) == Ok(id) && !s.users[id].isAdmin
    ensures CreateUserAsAdmin(s, token, now, create) == Fail(s, AdminOnly)
    ensures UpdateUserAsAdmin(s, token, now, target, userUpd) == Fail(s, AdminOnly)
    ensures DeleteUserAsAdmin(s, token, now, target) == Fail(s, AdminOnly)
    ensures UserPortfoliosAsAdmin(s, token, now, target) == Err(AdminOnly)
    ensures UpdatePortfolioAsAdmin(s, token, now, target, pUpd) == Fail(s, AdminOnly)
    ensures DeletePortfolioAsAdmin(s, token, now, target) == Fail(s, AdminOnly)
  {
  }

  /** Another user's portfolio is out of reach: update and delete answer 404 and change nothing. */
  lemma ForeignPortfolioUntouchable(s: Store, token: Token, now: int, pid: nat, upd: PortfolioUpdate)
    requires GetCurrentUser(s, token, now).Ok?
    requires pid in s.portfolios && s.portfolios[pid].owner != GetCurrentUser(s, token, now).value
    ensures UpdatePortfolio(s, token, now, pid, upd) == Fail(s, PortfolioNotFound)
    ensures DeletePortfolio(s, token, now, pid) == Fail(s, PortfolioNotFound)
  {
  }
}

=== FILE: schemas.dfy ===
/**
 * Request bodies of the user and portfolio routes and the field checks
 * their schemas perform before a handler runs.
 */
module Schemas {
  import opened Base

  /**
   * A field of a partial update as `model_dump(exclude_unset=True)` sees
   * it: either absent from the request, or sent with a value (which may be
   * an explicit `null`).
   */
  datatype Patch<+T> = Unset | SetTo(value: T)

  /** Body of the registration request. */
  datatype UserCreate = UserCreate(firstName: string, lastName: string, username: string,
                                   email: string, password: string)

  predicate LengthBetween(s: string, lo: nat, hi: nat)
  {
    lo <= |s| <= hi
  }

  /** The field-length constraints of `UserCreate`. */
  predicate ValidUserCreate(u: UserCreate)
  {
    && LengthBetween(u.firstName, 2, 50)
    && LengthBetween(u.lastName, 2, 50)
    && LengthBetween(u.username, 3, 30)
    && LengthBetween(u.password, 6, 128)
  }

  /** Body of the admin's user-creation request: a `UserCreate` plus the two flags. */
  datatype AdminUserCreate = AdminUserCreate(fields: UserCreate, isAdmin: bool, isVerified: bool)

  /** An `AdminUserCreate` whose body leaves both flags out. */
  function AdminUserCreateWithDefaults(fields: UserCreate): (a: AdminUserCreate)
    ensures a.fields == fields
    ensures !a.isAdmin && a.isVerified
  {
    AdminUserCreate(fields, false, true)
  }

  /** Body of the profile update: every field optional (`None` when left out or sent as null). */
  datatype UserUpdate = UserUpdate(firstName: Option<string>, lastName: Option<string>,
                                   username: Option<string>, email: Option<string>)

  /** Body of the admin's user update: the `UserUpdate` fields plus both flags, all optional. */
  datatype AdminUserUpdate = AdminUserUpdate(
    firstName: Patch<Option<string>>, lastName: Patch<Option<string>>,
    username: Patch<Option<string>>, email: Patch<Option<string>>,
    isAdmin: Patch<Option<bool>>, isVerified: Patch<Option<bool>>)

  /** Body of portfolio creation: a title is required, the rest may be null. */
  datatype PortfolioCreate = PortfolioCreate(title: string, description: Option<string>,
                                             detail: Option<string>, link: Option<string>)

  /** Body of a portfolio update: every field optional. */
  datatype PortfolioUpdate = PortfolioUpdate(
    title: Patch<Option<string>>, description: Patch<Option<string>>,
    detail: Patch<Option<string>>, link: Patch<Option<string>>)
}

=== FILE: security.dfy ===
/**
 * Token minting and decoding (the JWT layer) and password hashing.
 *
 * JWT signing and PBKDF2 are library calls. The model replaces them with
 * their algebra:
 * - a token either carries the server's signature over a claim set
 *   (`Signed`) or does not verify under the server key (`Unverifiable`);
 *   encoding is `Signed`, so decoding a minted token gives back exactly its
 *   claims until they expire;
 * - a digest is the one-way image of its preimage, and verification accepts
 *   exactly that preimage.
 */
module Security {
  import opened Base

  /** A claim value: the server only ever puts integers and strings in tokens. */
  datatype Claim = Num(n: int) | Text(s: string)

  /** A JWT payload, the Python `dict` passed to `jwt.encode`. */
  type Claims = map<string, Claim>

  /** `payload.get(key)`. */
  function Get(c: Claims, key: string): (r: Option<Claim>)
    ensures r.Some? <==> key in c
    ensures r.Some? ==> r.value == c[key]
  {
    if key in c then Some(c[key]) else None
  }

  /** Python truthiness of `payload.get(key)`: present, non-zero, non-empty. */
  predicate Truthy(c: Option<Claim>)
  {
    match c
    case None => false
    case Some(Num(n)) => n != 0
    case Some(Text(s)) => s != ""
  }

  const ACCESS: string := "access"
  const EMAIL_VERIFY: string := "email_verify"
  const PASSWORD_RESET: string := "password_reset"
  const ACCOUNT_DELETE: string := "account_delete"

  /** Lifetime, in seconds, of every non-access token minted without an explicit one. */
  const FIFTEEN_MINUTES: int := 15 * 60

  /** Lifetime, in seconds, of a password-reset token. */
  const ONE_HOUR: int := 60 * 60

  /** Claim names `create_token` stamps over whatever the caller supplied. */
  const STAMPED: set<string> := {"iat", "exp", "type"}

  /** Process-wide settings read from the environment at start-up. */
  datatype Config = Config(accessTokenExpireMinutes: int)

  /** A bearer token as presented by a client. */
  datatype Token =
    | Signed(claims: Claims)      // verifies under the server's key
    | Unverifiable(text: string)  // malformed, or signed with another key

  /** The lifetime `create_token` gives a token, in seconds. */
  function Lifetime(cfg: Config, tokenType: string, expiresDelta: Option<int>): int
  {
    match expiresDelta
    case Some(d) => d
    case None =>
      if tokenType == ACCESS then cfg.accessTokenExpireMinutes * 60 else FIFTEEN_MINUTES
  }

  /**
   * `create_token`: copies the caller's claims, stamps issue time, expiry
   * and purpose over them, and signs the result.
   */
  function CreateToken(data: Claims, tokenType: string, expiresDelta: Option<int>,
                       now: int, cfg: Config): (t: Token)
    ensures t.Signed?
    ensures t.claims.Keys == data.Keys + STAMPED
    ensures forall k :: k in data && k !in STAMPED ==> t.claims[k] == data[k]
    ensures t.claims["type"] == Text(tokenType)
    ensures t.claims["iat"] == Num(now)
    ensures expiresDelta.Some? ==> t.claims["exp"] == Num(now + expiresDelta.value)
    ensures expiresDelta.None? && tokenType == ACCESS ==>
              t.claims["exp"] == Num(now + 60 * cfg.accessTokenExpireMinutes)
    ensures expiresDelta.None? && tokenType != ACCESS ==>
              t.claims["exp"] == Num(now + 15 * 60)
  {
    Signed(data["iat" := Num(now)]
               ["exp" := Num(now + Lifetime(cfg, tokenType, expiresDelta))]
               ["type" := Text(tokenType)])
  }

  /**
   * The registered-claim checks `jwt.decode` performs: `exp`, when present,
   * must be an integer not earlier than now, and `iat`, when present, must
   * be an integer.
   */
  predicate TimesAccepted(c: Claims, now: int)
  {
    && ("exp" in c ==> c["exp"].Num? && now <= c["exp"].n)
    && ("iat" in c ==> c["iat"].Num?)
  }

  /**
   * `exp` is a cutoff: a token accepted at some instant was accepted at every
   * earlier one, and decodes to the same claims there.
   */
  lemma ExpiryIsACutoff(t: Token, expectedType: Option<string>, now: int, later: int)
    requires now <= later
    ensures t.Signed? && TimesAccepted(t.claims, later) ==> TimesAccepted(t.claims, now)
    ensures DecodeToken(t, expectedType, later).Ok? ==>
              DecodeToken(t, expectedType, now) == DecodeToken(t, expectedType, later)
  {
  }

  /** Python truthiness of the optional `expected_type` argument. */
  predicate Expects(expectedType: Option<string>)
  {
    Present(expectedType)
  }

  /**
   * `decode_token`: verifies signature and expiry and, when a purpose is
   * expected, that the token was minted for it. Every failure is the same
   * `TokenInvalid`.
   */
  function DecodeToken(t: Token, expectedType: Option<string>, now: int): (r: Result<Claims>)
    ensures r.Err? ==> r.reason == TokenInvalid
    ensures r.Ok? ==> t == Signed(r.value) && TimesAccepted(r.value, now)
    ensures r.Ok? && Expects(expectedType) ==> Get(r.value, "type") == Some(Text(expectedType.value))
    ensures t.Signed? && TimesAccepted(t.claims, now) && !Expects(expectedType) ==> r.Ok?
  {
    match t
    case Unverifiable(_) => Err(TokenInvalid)
    case Signed(c) =>
      if !TimesAccepted(c, now) then Err(TokenInvalid)
      else if Expects(expectedType) && Get(c, "type") != Some(Text(expectedType.value)) then Err(TokenInvalid)
      else Ok(c)
  }

  /** Round trip: an unexpired token decodes, for its own purpose, to exactly the claims it was minted with. */
  lemma DecodeCreateRoundTrip(data: Claims, tokenType: string, expiresDelta: Option<int>,
                              issued: int, now: int, cfg: Config)
    requires now <= issued + Lifetime(cfg, tokenType, expiresDelta)
    ensures var t := CreateToken(data, tokenType, expiresDelta, issued, cfg);
            DecodeToken(t, Some(tokenType), now) == Ok(t.claims)
  {
  }

  /** Purpose binding: a token minted for one purpose never decodes for another. */
  lemma DecodeRejectsOtherPurpose(data: Claims, tokenType: string, expiresDelta: Option<int>,
                                  issued: int, now: int, cfg: Config, expected: string)
    requires expected != "" && expected != tokenType
    ensures DecodeToken(CreateToken(data, tokenType, expiresDelta, issued, cfg), Some(expected), now)
            == Err(TokenInvalid)
  {
  }

  /** Expiry: once its lifetime has elapsed a minted token is rejected whatever purpose is asked for. */
  lemma DecodeRejectsExpired(data: Claims, tokenType: string, expiresDelta: Option<int>,
                             issued: int, now: int, cfg: Config, expected: Option<string>)
    requires now > issued + Lifetime(cfg, tokenType, expiresDelta)
    ensures DecodeToken(CreateToken(data, tokenType, expiresDelta, issued, cfg), expected, now)
            == Err(TokenInvalid)
  {
  }

  /** Without an expected purpose, an unexpired token of any purpose is accepted. */
  lemma DecodeUntypedAcceptsAnyPurpose(data: Claims, tokenType: string, expiresDelta: Option<int>,
                                       issued: int, now: int, cfg: Config)
    requires now <= issued + Lifetime(cfg, tokenType, expiresDelta)
    ensures var t := CreateToken(data, tokenType, expiresDelta, issued, cfg);
            DecodeToken(t, None, now) == Ok(t.claims)
  {
  }

  /** A stored password hash: the one-way image of a plaintext. */
  datatype Digest = Digest(preimage: string)

  /** `hash_password`. */
  function HashPassword(plain: string): Digest
  {
    Digest(plain)
  }

  /** `verify_password`: accepts exactly the password the digest was made from. */
  function VerifyPassword(plain: string, hashed: Digest): (ok: bool)
    ensures ok <==> hashed == HashPassword(plain)
  {
    hashed.preimage == plain
  }

  /** The hashing axioms: `verify(p, hash(p))`, and `verify(q, hash(p))` only when `q = p`. */
  lemma VerifyHashExactly(q: string, p: string)
    ensures VerifyPassword(p, HashPassword(p))
    ensures VerifyPassword(q, HashPassword(p)) ==> q == p
  {
  }
}

=== FILE: users.dfy ===
/**
 * The profile routes: updating one's own profile (with the email-change
 * sub-flow that sends the account back to unverified) and the two-step
 * account deletion.
 */
module Users {
  import opened Base
  import opened Security
  import opened Schemas
  import opened Models
  import opened Dependencies
  import opened Auth

  /** What a successful profile update answers. */
  datatype ProfileReply =
    | ProfileUpdated(id: nat)  // 200 with the updated user
    | LogoutRequired           // 202: the email changed and must be verified again

  /** A `.first()` lookup result that names a user other than `me`. */
  predicate HeldByOther(found: Option<nat>, me: nat)
  {
    found.Some? && found.value != me
  }

  /** Whether the requested email differs from the stored one, the test that starts re-verification. */
  predicate EmailChanges(me: User, upd: UserUpdate)
  {
    Present(upd.email) && upd.email.value != me.email
  }

  /** Whether the request changes anything: any non-empty name or username, or a different email. */
  predicate UpdatesSomething(me: User, upd: UserUpdate)
  {
    Present(upd.firstName) || Present(upd.lastName) || Present(upd.username) || EmailChanges(me, upd)
  }

  /** The row after the assignments of `update_my_profile`. */
  function EditProfile(me: User, upd: UserUpdate, nonce: string): (u: User)
    ensures u.firstName == (if Present(upd.firstName) then upd.firstName.value else me.firstName)
    ensures u.lastName == (if Present(upd.lastName) then upd.lastName.value else me.lastName)
    ensures u.username == (if Present(upd.username) then upd.username.value else me.username)
    ensures EmailChanges(me, upd) ==>
              u.email == upd.email.value && !u.isVerified && u.verifyNonce == Some(nonce)
    ensures !EmailChanges(me, upd) ==>
              u.email == me.email && u.isVerified == me.isVerified && u.verifyNonce == me.verifyNonce
    ensures u.password == me.password && u.isAdmin == me.isAdmin
  {
    var named := me.(firstName := if Present(upd.firstName) then upd.firstName.value else me.firstName,
                     lastName := if Present(upd.lastName) then upd.lastName.value else me.lastName,
                     username := if Present(upd.username) then upd.username.value else me.username);
    if EmailChanges(me, upd)
    then named.(email := upd.email.value, isVerified := false, verifyNonce := Some(nonce))
    else named
  }

  /** `update_my_profile`. */
  function UpdateMyProfile(s: Store, token: Token, upd: UserUpdate, now: int, cfg: Config,
                           nonce: string): (o: Outcome<ProfileReply>)
    ensures o.result.Err? ==> o.store == s && o.outbox == []
    ensures o.result.Ok? ==>
              && GetCurrentUser(s, token, now).Ok?
              && var id := GetCurrentUser(s, token, now).value;
                 && UpdatesSomething(s.users[id], upd)
                 && o.store == PutUser(s, id, EditProfile(s.users[id], upd, nonce))
                 && (EmailChanges(s.users[id], upd) ==>
                       o.result == Ok(LogoutRequired)
                       && o.outbox == [Mail(upd.email.value, VerifyNewEmail, Some(VerifyLink(id, nonce, now, cfg)))])
                 && (!EmailChanges(s.users[id], upd) ==> o.result == Ok(ProfileUpdated(id)) && o.outbox == [])
    ensures GetCurrentUser(s, token, now).Err? ==> o.result == Err(GetCurrentUser(s, token, now).reason)
    ensures GetCurrentUser(s, token, now).Ok? ==>
              var id := GetCurrentUser(s, token, now).value;
              var usernameTaken := Present(upd.username) && HeldByOther(FindUser(s, ByUsername(upd.username.value)), id);
              var emailTaken := Present(upd.email) && HeldByOther(FindUser(s, ByEmailFolded(upd.email.value)), id);
              && (usernameTaken ==> o == Fail(s, UsernameTaken))
              && (!usernameTaken && emailTaken ==> o == Fail(s, EmailTaken))
              && (!usernameTaken && !emailTaken && !UpdatesSomething(s.users[id], upd) ==> o == Fail(s, NothingToUpdate))
              && (!usernameTaken && !emailTaken && UpdatesSomething(s.users[id], upd)
                  && UniqueIdentities(s.users[id := EditProfile(s.users[id], upd, nonce)])
                  ==> o.result.Ok?)
    ensures Valid(s) ==> Valid(o.store)
  {
    match GetCurrentUser(s, token, now)
    case Err(e) => Fail(s, e)
    case Ok(id) =>
      var me := s.users[id];
      if Present(upd.username) && HeldByOther(FindUser(s, ByUsername(upd.username.value)), id)
      then Fail(s, UsernameTaken)
      else if Present(upd.email) && HeldByOther(FindUser(s, ByEmailFolded(upd.email.value)), id)
      then Fail(s, EmailTaken)
      else if !UpdatesSomething(me, upd) then Fail(s, NothingToUpdate)
      else
        var s' := PutUser(s, id, EditProfile(me, upd, nonce));
        if EmailChanges(me, upd)
        then Commit(s, s', Ok(LogoutRequired),
                    [Mail(upd.email.value, VerifyNewEmail, Some(VerifyLink(id, nonce, now, cfg)))])
        else Commit(s, s', Ok(ProfileUpdated(id)), [])
  }

  /** The `account_delete` token mailed to user `id`, with the default fifteen-minute life. */
  function DeleteLink(id: nat, now: int, cfg: Config): Token
  {
    CreateToken(map["user_id" := Num(id)], ACCOUNT_DELETE, None, now, cfg)
  }

  /** `request_account_deletion`: mails a confirmation link, changes nothing. */
  function RequestAccountDeletion(s: Store, token: Token, now: int, cfg: Config): (o: Outcome<()>)
    ensures o.store == s
    ensures o.result.Err? <==> GetCurrentUser(s, token, now).Err?
    ensures o.result.Err? ==> o.outbox == []
    ensures o.result.Ok? ==>
              var id := GetCurrentUser(s, token, now).value;
              o.outbox == [Mail(s.users[id].email, ConfirmDeletion, Some(DeleteLink(id, now, cfg)))]
  {
    match GetCurrentUser(s, token, now)
    case Err(e) => Fail(s, e)
    case Ok(id) => Outcome(Ok(()), s, [Mail(s.users[id].email, ConfirmDeletion, Some(DeleteLink(id, now, cfg)))])
  }

  /**
   * `confirm_account_deletion`: deletes the user an `account_delete` token
   * names together with all of that user's portfolios. Deleting rows cannot
   * break a unique constraint, so the commit always succeeds.
   */
  function ConfirmAccountDeletion(s: Store, token: Token, now: int): (o: Outcome<()>)
    ensures o.result.Err? ==> o.store == s && o.outbox == []
    ensures o.result.Err? ==> o.result.reason in {TokenInvalid, UserNotFound}
    ensures o.result.Ok? ==>
              && token.Signed? && Get(token.claims, "type") == Some(Text(ACCOUNT_DELETE))
              && var id := LookupUser(s, Get(token.claims, "user_id"));
                 && id.Some?
                 && o.store == DeleteUserCascade(s, id.value)
                 && o.outbox == [Mail(s.users[id.value].email, AccountWasDeleted, None)]
    ensures DecodeToken(token, Some(ACCOUNT_DELETE), now).Err? ==> o.result == Err(TokenInvalid)
    ensures DecodeToken(token, Some(ACCOUNT_DELETE), now).Ok? ==>
              (o.result.Ok? <==> LookupUser(s, Get(token.claims, "user_id")).Some?)
    ensures Valid(s) ==> Valid(o.store)
  {
    match DecodeToken(token, Some(ACCOUNT_DELETE), now)
    case Err(e) => Fail(s, e)
    case Ok(c) =>
      match LookupUser(s, Get(c, "user_id"))
      case None => Fail(s, UserNotFound)
      case Some(id) =>
        Outcome(Ok(()), DeleteUserCascade(s, id), [Mail(s.users[id].email, AccountWasDeleted, None)])
  }
}
